=== FILE: README.md ===
# Miden blocks, transaction-kernel stacks and proxy status responses in Dafny

This project models three sequential pieces of the Miden rollup code base and proves properties about them.

- **Blocks** (`block.dfy`, `block_serde.dfy`):
  - A block holds a header, account updates, batches of created notes and nullifiers.
  - It exists only if its note batches pass validation. There are at most `MAX_BATCHES_PER_BLOCK` batches, each with at most `MAX_NOTES_PER_BATCH` notes, and no note ID appears twice.
  - The checks run in a fixed order, so the reported error is determined by the block.
  - The block's notes and transactions are also available as flat, indexed views.
  - The transaction commitment hashes a fixed element layout.
  - Serialization writes the four fields in order. Deserialization reads them back in the same order and applies the same validation.
- **Transaction-kernel stacks** (`transaction_kernel.dfy`):
  - The 14-element input stack is built for the kernel.
  - The output stack is built by push, extend and reverse, and is read back with two error checks.
  - Transaction outputs are assembled from the output stack, the advice map and the output notes.
  - Advice data is added for a foreign account.
  - Inputs are prepared for execution.
- **Proving-service proxy responses** (`proxy_responses.dfy`):
  - The four canned status responses are modelled: 503 queue full, 429 rate limited, 200 workers updated, and 400 with an error message.
  - Each builds a response header, turns off keep-alive and writes the header to the client session. The queue-full path also increments the queue-drop metric.

Shared vocabulary lives in `common.dfy`: field elements below the Goldilocks prime, 4-element words and digests, `Option`, and a `Result` usable with `:-`. Sequence facts (flattening with offsets, distinctness, the first repeated element) live in `seqs.dfy`.

Modelling choices:
- Validation limits are a `Limits` parameter because their values are defined outside the modelled files.
- In `block/mod.rs` an account ID converts into one field element (`account_id.into()` at line 141), so `Blocks.AccountId` is one `Felt`. The transaction module uses the two-element `(prefix, suffix)` ID.
- Serialization is modelled at field granularity. Each foreign value is written as one token, and a vector is written as a length token followed by its items.
- The VM's stack outputs are modelled as exactly sixteen elements, with the given values on top and zeros below. A word is read from the stack in reverse element order, as the VM does.
- The client session records its keep-alive setting and the log of written headers, each with the keep-alive setting in force when it was written. A count of writes the connection still accepts stands in for write failures.
- The drop metric is a `Counter` object passed in explicitly instead of a global.
- The doc comment of `parse_output_stack` mentions checks on words 3 and 4 and on overflow addresses. The code checks only the expiration bound and the word at element 12, and the model follows the code.

## Model

| member | source | states |
|---|---|---|
| Seqs.FirstRepeatMeaning | objects/src/block/mod.rs:163-170 | the scan finds no repeat exactly when the IDs are pairwise distinct; otherwise it names a position whose value already occurred, with everything before it distinct |
| Seqs.FirstRepeatExtend | objects/src/block/mod.rs:163-170 | once a repeat has been seen, scanning further input does not change the reported repeat (early return) |
| Seqs.FlattenAt | objects/src/block/mod.rs:102-108 | element j of batch i sits at position offset(i)+j of the flattening |
| Seqs.FlattenLocate | objects/src/block/mod.rs:102-108 | every position of the flattening is element j of some batch i, at offset(i)+j |
| Blocks.FirstOversizedBatch | objects/src/block/mod.rs:157-161 | the first batch longer than the per-batch limit, or none exactly when all batches fit |
| Blocks.ValidationOutcome | objects/src/block/mod.rs:151-172 | the verdict validate reaches; a batch-count error carries the batch count, which is over the limit; a batch-size error carries a length over the per-batch limit; a duplicate error carries one of the block's note IDs (the full characterisation is ValidationOutcomeMeaning) |
| Blocks.ValidationOutcomeMeaning | objects/src/block/mod.rs:151-172 | validation succeeds iff the bounds hold and note IDs are distinct; TooManyTransactionBatches(n) iff n exceeds the batch limit; TooManyNotesInBatch carries the first oversized batch's length, iff the count is fine and some batch is too long; DuplicateNoteFound iff both bounds hold and an ID repeats |
| Blocks.DuplicateIsFirstRepeat | objects/src/block/mod.rs:163-170 | the duplicate reported is the first note ID, in batch-major order, that already appeared earlier |
| Blocks.Validate | objects/src/block/mod.rs:151-173 | the batch-count check, the loop over batch sizes and the duplicate scan compute exactly the verdict characterised above |
| Blocks.OutcomeWithinLimits | objects/src/block/mod.rs:163-172 | once both bounds hold, the verdict is the first repeated note ID, or success |
| Blocks.CheckNoteIdsUnique | objects/src/block/mod.rs:163-172 | the seen-set loop over note IDs in batch-major order reports exactly the first ID that already occurred, or succeeds when there is none |
| Blocks.RepeatFoundAt | objects/src/block/mod.rs:166-167 | an ID already in the seen set, after a repeat-free prefix, is the first repeat |
| Blocks.NoRepeatStep | objects/src/block/mod.rs:166 | inserting an unseen ID keeps the prefix repeat-free and grows the seen set by that ID |
| Blocks.NewBlock | objects/src/block/mod.rs:60-76 | Ok iff validation passes; the block keeps the header, updates, notes and nullifiers exactly as given and is valid; otherwise the validation error |
| Blocks.BlockAccountUpdate.IsPrivate | objects/src/block/mod.rs:262-266 | an update is private exactly when its details are the private variant (a definition, no contract) |
| Blocks.Notes | objects/src/block/mod.rs:102-108 | notes(): the created notes flattened batch by batch, each with its (batch, note) index; its layout is proved by NotesLength, NotesAt, NoteEntryAddressesNote and NotesBatchMajor (a definition, no contract) |
| Blocks.NotesLength | objects/src/block/mod.rs:102-108 | notes() has one entry per note, the sum of the batch lengths |
| Blocks.NotesAt | objects/src/block/mod.rs:102-108 | note j of batch i appears at position offset(i)+j with index (i, j) |
| Blocks.NoteEntryAddressesNote | objects/src/block/mod.rs:102-108 | every entry's index addresses created_notes[batch][note], the note it is paired with |
| Blocks.NotesBatchMajor | objects/src/block/mod.rs:102-108 | entries come in strictly increasing (batch, note) order, so no index repeats |
| Blocks.NoteIndexWithinLimits | objects/src/block/mod.rs:110-118 | in a valid block every note-tree index is within the batch and per-batch bounds |
| Blocks.NoteIdsMatchNotes | objects/src/block/mod.rs:102-108 | the IDs validation checks are the IDs of notes(), position by position |
| Blocks.Transactions | objects/src/block/mod.rs:126-133 | transactions(): every update's transaction IDs in order, each paired with that update's account ID; its layout is proved by TransactionsLength, TransactionsAt and TransactionFromUpdate (a definition, no contract) |
| Blocks.TransactionsLength | objects/src/block/mod.rs:126-133 | transactions() has one pair per transaction ID of every update |
| Blocks.TransactionsAt | objects/src/block/mod.rs:126-133 | transaction j of update i is listed at offset(i)+j with update i's account ID |
| Blocks.TransactionFromUpdate | objects/src/block/mod.rs:126-133 | every listed pair is some update's transaction with that update's account |
| Blocks.TxHashElements | objects/src/block/mod.rs:139-143 | eight elements per pair, `[account, 0, 0, 0]` then the transaction ID, in order |
| Blocks.ComputeTxHash | objects/src/block/mod.rs:136-146 | the loop builds exactly that element layout and hashes it |
| BlockSerde.WriteUpdate | objects/src/block/mod.rs:268-276 | an update is written as account ID, state hash, details and the length-prefixed transaction IDs; UpdateRoundTrip reads it back (a definition, no contract) |
| BlockSerde.WriteBlock | objects/src/block/mod.rs:176-183 | a block is written as header, updates, note batches and nullifiers, in that order; BlockRoundTrip reads it back (a definition, no contract) |
| BlockSerde.ReadUpdate | objects/src/block/mod.rs:278-286 | an update is read field by field (account ID, state hash, details, transactions), consuming exactly its written form |
| BlockSerde.UpdateRoundTrip | objects/src/block/mod.rs:269-286 | reading a written update gives it back with the rest of the input untouched |
| BlockSerde.ReadDigestItems | objects/src/block/mod.rs:284 | reading n digests consumes exactly their written form and yields n of them |
| BlockSerde.ReadUpdateItems | objects/src/block/mod.rs:189 | reading n updates consumes exactly their written form and yields n of them |
| BlockSerde.ReadNoteItems | objects/src/block/mod.rs:190 | reading n notes consumes exactly their written form and yields n of them |
| BlockSerde.ReadBatchItems | objects/src/block/mod.rs:190 | reading n note batches consumes exactly their written form and yields n of them |
| BlockSerde.ReadDigests | objects/src/block/mod.rs:191 | a length-prefixed digest vector is read back exactly as written |
| BlockSerde.ReadUpdates | objects/src/block/mod.rs:189 | a length-prefixed update vector is read back exactly as written |
| BlockSerde.ReadBatch | objects/src/block/mod.rs:190 | a length-prefixed note batch is read back exactly as written |
| BlockSerde.ReadBatches | objects/src/block/mod.rs:190 | a length-prefixed vector of note batches is read back exactly as written |
| BlockSerde.DigestItemsRoundTrip | objects/src/block/mod.rs:177-199 | reading written digests gives them back |
| BlockSerde.DigestsRoundTrip | objects/src/block/mod.rs:177-199 | the nullifier vector round-trips |
| BlockSerde.UpdateItemsRoundTrip | objects/src/block/mod.rs:177-199 | written updates read back as themselves |
| BlockSerde.UpdatesRoundTrip | objects/src/block/mod.rs:177-199 | the update vector round-trips |
| BlockSerde.NoteItemsRoundTrip | objects/src/block/mod.rs:177-199 | written notes read back as themselves |
| BlockSerde.BatchRoundTrip | objects/src/block/mod.rs:177-199 | a note batch round-trips |
| BlockSerde.BatchItemsRoundTrip | objects/src/block/mod.rs:177-199 | written batches read back as themselves |
| BlockSerde.BatchesRoundTrip | objects/src/block/mod.rs:177-199 | the batch vector round-trips |
| BlockSerde.ReadBlock | objects/src/block/mod.rs:185-199 | a decoded block is always valid, and decoding consumed exactly its written form |
| BlockSerde.BlockRoundTrip | objects/src/block/mod.rs:176-199 | a written valid block reads back as itself; an invalid one is rejected as InvalidValue carrying its validation error |
| TransactionKernel.Reverse | crates/miden-lib/src/transaction/mod.rs:228 | the elements in the opposite order |
| TransactionKernel.NewStackOutputs | crates/miden-lib/src/transaction/mod.rs:229 | the given values on top, zeros to the stack's minimum depth |
| TransactionKernel.StackWord | crates/miden-lib/src/transaction/mod.rs:255-262 | the word read at an element index is the four elements from there, in reverse order |
| TransactionKernel.BuildInputStack | crates/miden-lib/src/transaction/mod.rs:145-161 | 14 elements: input-notes commitment, initial account hash, ID suffix, ID prefix, block hash |
| TransactionKernel.InputStackDeterminesInputs | crates/miden-lib/src/transaction/mod.rs:151-157 | each input can be read back from its slot of the input stack |
| TransactionKernel.BuildOutputStack | crates/miden-lib/src/transaction/mod.rs:219-232 | the top nine elements are reverse([expiration] ++ final account hash ++ notes commitment), the rest zeros, and parsing them returns the three inputs |
| TransactionKernel.OutputStackOf | crates/miden-lib/src/transaction/mod.rs:219-232 | the output stack as a value: reverse([expiration] ++ final account hash ++ notes commitment), padded with zeros; OutputStackLayout says where each part sits (a definition, no contract) |
| TransactionKernel.OutputStackLayout | crates/miden-lib/src/transaction/mod.rs:224-228 | notes commitment in word 0, final account hash in word 1, expiration at element 8, zeros after |
| TransactionKernel.ParseOutputStack | crates/miden-lib/src/transaction/mod.rs:252-284 | Ok iff the expiration fits a u32 and the word at element 12 is empty; the expiration error wins when both fail; on success (final account hash, notes commitment, expiration) from words 1, 0 and element 8 |
| TransactionKernel.ParseInvertsBuild | crates/miden-lib/src/transaction/mod.rs:219-284 | parsing a built output stack gives back exactly what was built into it |
| TransactionKernel.BuildInvertsParse | crates/miden-lib/src/transaction/mod.rs:219-284 | a stack that parses and has zeros at elements 9-11 is the stack built from its parse |
| TransactionKernel.ParseIgnoresElements9To11 | crates/miden-lib/src/transaction/mod.rs:255-281 | elements 9 to 11 are never checked |
| TransactionKernel.FromTransactionParts | crates/miden-lib/src/transaction/mod.rs:305-334 | every outcome in both directions: parse errors pass through unchanged; a missing final account hash gives FinalAccountHashMissingInAdviceMap; otherwise a header decode failure gives FinalAccountHeaderParseFailure with its cause, a duplicate note or too many notes give DuplicateOutputNote with the ID or TooManyOutputNotes with the count, a commitment mismatch gives OutputNotesCommitmentInconsistent with the notes' actual and the stack's expected commitment, and when every check passes the result is the decoded header, the accepted notes and the parsed expiration; conversely every error and every success has exactly that cause |
| TransactionKernel.OutputsFromBuiltStack | crates/miden-lib/src/transaction/mod.rs:305-334 | on a built stack, outputs are produced iff the advice map has a decodable header under the final account hash and the accepted notes commit to the built commitment |
| TransactionKernel.AdviceInputs.ExtendMap | crates/miden-lib/src/transaction/mod.rs:186-193 | map entries are inserted in order, a later entry replacing an earlier one; stack and store unchanged |
| TransactionKernel.AdviceInputs.ExtendMerkleStore | crates/miden-lib/src/transaction/mod.rs:196-199 | the given nodes are added to the store; stack and map unchanged |
| TransactionKernel.AccountKey | crates/miden-lib/src/transaction/mod.rs:182-183 | the advice-map key of a foreign account is `[suffix, prefix, 0, 0]`; AccountEntriesLookup states what is stored under it (a definition, no contract) |
| TransactionKernel.ExtendAdviceInputsForAccount | crates/miden-lib/src/transaction/mod.rs:171-202 | the map gains key `[suffix, prefix, 0, 0]` to header data, storage root to storage data and code root to code data; then the path's inner nodes for the ID prefix are added, or their error is returned with the map already extended |
| TransactionKernel.AccountEntriesLookup | crates/miden-lib/src/transaction/mod.rs:186-193 | after the three insertions each key maps to its data, later entries winning on a clash, and every other key is unchanged |
| TransactionKernel.PrepareInputs | crates/miden-lib/src/transaction/mod.rs:89-107 | the stack inputs have the input-stack layout for the account, its initial hash, the input-notes commitment and the block hash; advice inputs are the caller's, or fresh empty ones when none are given |
| ProxyResponses.NatDecimal | bin/proving-service/src/utils.rs:148 | decimal digits of an unsigned count, without leading zeros |
| ProxyResponses.IntDecimal | bin/proving-service/src/utils.rs:132 | decimal rendering of a signed integer: a minus sign exactly when negative, then digits with no leading zero unless the integer is 0 |
| ProxyResponses.NatDecimalRoundTrip | bin/proving-service/src/utils.rs:148 | the rendered count reads back as the count |
| ProxyResponses.IntDecimalRoundTrip | bin/proving-service/src/utils.rs:132 | the rendered signed integer reads back as itself |
| ProxyResponses.DecimalIsValidHeaderValue | bin/proving-service/src/utils.rs:132-148 | a rendered integer is always a valid header value, so those insertions cannot fail |
| ProxyResponses.SetAll | bin/proving-service/src/utils.rs:107 | every field of that name, not just the first, takes the new value; the number of fields is unchanged; other names look up as before |
| ProxyResponses.LookupAppend | bin/proving-service/src/utils.rs:107 | appending a field does not hide an earlier field of the same name |
| ProxyResponses.BuildHeader | bin/proving-service/src/utils.rs:106 | a header with the status and an empty field list, Ok iff the code is in 100..=999 |
| ProxyResponses.InsertHeader | bin/proving-service/src/utils.rs:107-108 | Ok iff the value is a valid header value; then every field of that name carries the value, a new name adds exactly one field and an existing name adds none, and the status and every other name are unchanged |
| ProxyResponses.Session.SetKeepalive | bin/proving-service/src/utils.rs:109 | the keep-alive timeout is set; the write log is unchanged |
| ProxyResponses.Session.WriteResponseHeader | bin/proving-service/src/utils.rs:110 | a write appends the header, its end-of-stream flag and the keep-alive setting then in force to the log, or fails leaving the log unchanged |
| ProxyResponses.Counter.Inc | bin/proving-service/src/utils.rs:120 | the counter goes up by one |
| ProxyResponses.RateLimitHeaderBuilt | bin/proving-service/src/utils.rs:131-134 | building the 429 header and inserting the limit, remaining "0" and reset "1" gives exactly those three fields and no other |
| ProxyResponses.RateLimitReadsBack | bin/proving-service/src/utils.rs:132 | the X-Rate-Limit-Limit value reads back as the configured limit |
| ProxyResponses.WorkerCountReadsBack | bin/proving-service/src/utils.rs:148 | the X-Worker-Count value reads back as the worker count |
| ProxyResponses.CreateQueueFullResponse | bin/proving-service/src/utils.rs:100-123 | always an error; keep-alive is off before the first write and stays off; the 503 header carrying exactly two fields, each name once, grpc-message "Too many requests in the queue" and grpc-status 8, is written first ending the stream, then not, each write logged with keep-alive off; only when both writes succeed is the drop counter incremented once and the result HTTPStatus(503) with that context and cause; otherwise the write error with the counter unchanged |
| ProxyResponses.CreateTooManyRequestsResponse | bin/proving-service/src/utils.rs:125-138 | keep-alive off before the write; one 429 header carrying exactly the three fields, each name once: limit, remaining "0" and reset "1" is written ending the stream with keep-alive off, then Ok(true); a failed write returns its error |
| ProxyResponses.CreateWorkersUpdatedResponse | bin/proving-service/src/utils.rs:140-152 | keep-alive off before the write; one 200 header whose only field is X-Worker-Count is written ending the stream with keep-alive off, then Ok(true); a failed write returns its error |
| ProxyResponses.CreateResponseWithErrorMessage | bin/proving-service/src/utils.rs:154-166 | an invalid message fails before the session is touched; otherwise keep-alive is turned off before one 400 header whose only field is X-Error-Message is written ending the stream, then Ok(true), or the write error |

## Left out

- Hashing and commitments are not defined here. `Hasher::hash_elements`, the output notes' commitment and `MerklePath::inner_nodes` are function parameters. `AccountHeader::hash` is the stored `AccountHeader.commitment` field, and `BlockHeader::hash` appears only as the stored `TransactionInputs.blockHash` value.
- The element encodings of the account header, account code and storage header (`as_elements`) come from code outside this model. They are carried as opaque data.
- `Block::build_note_tree` and `BlockNoteTree` are not modelled beyond the note indices they receive, which `Blocks.NoteIndexWithinLimits` bounds. `Block::hash` only delegates to the header hash.
- The getters of `Block` and `BlockAccountUpdate` are the fields of the Dafny datatypes.
- Byte-level encodings of headers, digests, account IDs, update details and vector lengths are out of scope. Serialization is modelled at field granularity, one token per foreign value.
- BlockSerde.ReadBlock: the error for a rejected block carries the `BlockError` itself rather than its display text.
- The kernel library, main program, program info, assemblers and testing assemblers (`transaction/mod.rs` lines 58-84, 110-122 and 337-374) load embedded binaries. They are outside this model.
- TransactionKernel.PrepareInputs: `inputs::extend_advice_inputs`, which `prepare_inputs` calls, is not part of this model, so the advice inputs are left as given or fresh.
- `parse_final_account_header` and `OutputNotes::new` are parameters. Their errors are passed through as the source does.
- The internals of the VM's `StackInputs::new` and `StackOutputs::new` are assumed to succeed on these vectors. The input stack is modelled as the element vector handed to `StackInputs::new`.
- ProxyResponses.InsertHeader: header names are compared exactly, not case-insensitively as HTTP does. Every name used here is a distinct constant.
- Pingora errors: the error source tag and the detail text of header and write errors are not modelled.
- ProxyResponses.Session.WriteResponseHeader: the session only records writes. Whether a second header write reaches the client is decided by the session implementation, which is outside this model.
- ProxyResponses.Counter.Inc: the counter is an unbounded natural number, so the metric's 64-bit range is not modelled.
- `setup_tracing` and `create_health_check_client` configure telemetry and open network connections. They are left out.
- The proxy's admission gate, request queue, worker pool and dispatcher are not in the modelled files. The concurrency and async scheduling around these responses is not modelled.
- Field arithmetic on `Felt` is not needed here. Elements are held as their canonical integer values.

=== FILE: block.dfy ===
/**
  A block of the Miden chain: its account updates, its note batches and
  its nullifiers, the three rules a block must satisfy, and the flat views
  of its notes and transactions.
 */
module Blocks {
  import opened Common
  import opened Seqs

  /** In this version of the block code an account ID converts into one field element. */
  type AccountId = Felt

  type TransactionId = Digest

  type Nullifier = Digest

  type NoteId = Digest

  type NoteBatch = seq<OutputNote>

  /** The block header; its fields and its hash are not part of this model. */
  datatype BlockHeader = BlockHeader(elements: seq<Felt>)

  /** What a block records about an updated account: nothing for a private one, else its new state or its delta. */
  datatype AccountUpdateDetails = Private | New(account: seq<Felt>) | Delta(delta: seq<Felt>)

  /** One updated account, with the IDs of the transactions of the block that touched it. */
  datatype BlockAccountUpdate = BlockAccountUpdate(
    accountId: AccountId,
    newStateHash: Digest,
    details: AccountUpdateDetails,
    transactions: seq<TransactionId>)
  {
    predicate IsPrivate()
    {
      details.Private?
    }
  }

  datatype Block = Block(
    header: BlockHeader,
    updatedAccounts: seq<BlockAccountUpdate>,
    createdNotes: seq<NoteBatch>,
    createdNullifiers: seq<Nullifier>)

  /** The two protocol bounds on note batches, MAX_BATCHES_PER_BLOCK and MAX_NOTES_PER_BATCH. */
  datatype Limits = Limits(maxBatchesPerBlock: nat, maxNotesPerBatch: nat)

  datatype BlockError =
    | TooManyTransactionBatches(count: nat)
    | TooManyNotesInBatch(count: nat)
    | DuplicateNoteFound(id: NoteId)

  /** Where a note sits in the block's note tree: its batch and its place in that batch. */
  datatype BlockNoteIndex = BlockNoteIndex(batchIdx: nat, noteIdxInBatch: nat)

  // ----------------------------------------------------------------------------------------
  // Block rules
  // ----------------------------------------------------------------------------------------

  /** The note IDs of each batch, batch by batch. */
  function BatchIds(batches: seq<NoteBatch>): (idss: seq<seq<NoteId>>)
    ensures |idss| == |batches|
    ensures forall i :: 0 <= i < |batches| ==> |idss[i]| == |batches[i]|
    ensures forall i, j :: 0 <= i < |batches| && 0 <= j < |batches[i]| ==> idss[i][j] == batches[i][j].id
  {
    seq(|batches|, i requires 0 <= i < |batches| =>
      seq(|batches[i]|, j requires 0 <= j < |batches[i]| => batches[i][j].id))
  }

  /** Every note ID of the block, in batch-major order. */
  function NoteIds(batches: seq<NoteBatch>): seq<NoteId>
  {
    Flatten(BatchIds(batches))
  }

  ghost predicate WithinLimits(batches: seq<NoteBatch>, limits: Limits)
  {
    && |batches| <= limits.maxBatchesPerBlock
    && forall i :: 0 <= i < |batches| ==> |batches[i]| <= limits.maxNotesPerBatch
  }

  /** The block rules: both bounds hold and no note ID occurs twice. */
  ghost predicate SatisfiesRules(batches: seq<NoteBatch>, limits: Limits)
  {
    WithinLimits(batches, limits) && Distinct(NoteIds(batches))
  }

  /** A block that its constructor or its decoder could have produced. */
  ghost predicate Valid(block: Block, limits: Limits)
  {
    SatisfiesRules(block.createdNotes, limits)
  }

  /** The index of the first batch holding more than `max` notes, if any. */
  function FirstOversizedBatch(batches: seq<NoteBatch>, max: nat): (r: Option<nat>)
    ensures r.None? <==> forall i :: 0 <= i < |batches| ==> |batches[i]| <= max
    ensures r.Some? ==> r.value < |batches| && |batches[r.value]| > max
    ensures r.Some? ==> forall i :: 0 <= i < r.value ==> |batches[i]| <= max
  {
    if |batches| == 0 then None
    else if |batches[0]| > max then Some(0)
    else
      match FirstOversizedBatch(batches[1..], max)
      case None => None
      case Some(i) => Some(i + 1)
  }

  /**
    The verdict of block validation: the batch count is checked first, then
    each batch's size in order, then note IDs for repeats in batch-major
    order; the first check that fails decides the error.
    ValidationOutcomeMeaning states the verdict declaratively.
   */
  function ValidationOutcome(batches: seq<NoteBatch>, limits: Limits): (r: Result<(), BlockError>)
    ensures r.Err? && r.error.TooManyTransactionBatches? ==>
      r.error.count == |batches| > limits.maxBatchesPerBlock
    ensures r.Err? && r.error.TooManyNotesInBatch? ==> r.error.count > limits.maxNotesPerBatch
    ensures r.Err? && r.error.DuplicateNoteFound? ==> r.error.id in NoteIds(batches)
  {
    if |batches| > limits.maxBatchesPerBlock then
      Err(TooManyTransactionBatches(|batches|))
    else
      match FirstOversizedBatch(batches, limits.maxNotesPerBatch)
      case Some(i) => Err(TooManyNotesInBatch(|batches[i]|))
      case None =>
        var ids := NoteIds(batches);
        match FirstRepeat(ids)
        case Some(p) => Err(DuplicateNoteFound(ids[p]))
        case None => Ok(())
  }

  /**
    What the verdict means: success exactly when the rules hold; a batch-count
    error exactly when there are too many batches; a batch-size error for the
    first oversized batch, exactly when the count is fine but some batch is
    too large; a duplicate error for the first ID, in batch-major order, that
    occurred before, exactly when both bounds hold but the IDs repeat.
   */
  lemma ValidationOutcomeMeaning(batches: seq<NoteBatch>, limits: Limits)
    ensures var r := ValidationOutcome(batches, limits);
      && (r.Ok? <==> SatisfiesRules(batches, limits))
      && (r.Err? && r.error.TooManyTransactionBatches? <==> |batches| > limits.maxBatchesPerBlock)
      && (r.Err? && r.error.TooManyTransactionBatches? ==> r.error.count == |batches|)
      && ((r.Err? && r.error.TooManyNotesInBatch?)
            <==> (|batches| <= limits.maxBatchesPerBlock
                  && exists i :: 0 <= i < |batches| && |batches[i]| > limits.maxNotesPerBatch))
      && (r.Err? && r.error.TooManyNotesInBatch? ==>
            exists i :: 0 <= i < |batches| && |batches[i]| > limits.maxNotesPerBatch
                        && r.error.count == |batches[i]|
                        && forall k :: 0 <= k < i ==> |batches[k]| <= limits.maxNotesPerBatch)
      && ((r.Err? && r.error.DuplicateNoteFound?)
            <==> (WithinLimits(batches, limits) && !Distinct(NoteIds(batches))))
  {
    FirstRepeatMeaning(NoteIds(batches));
  }

  /** The reported duplicate is the first note ID, in batch-major order, that already occurred. */
  lemma DuplicateIsFirstRepeat(batches: seq<NoteBatch>, limits: Limits)
    requires ValidationOutcome(batches, limits).Err?
    requires ValidationOutcome(batches, limits).error.DuplicateNoteFound?
    ensures var ids := NoteIds(batches);
      exists p :: 0 <= p < |ids| && ids[p] == ValidationOutcome(batches, limits).error.id
                  && ids[p] in ids[..p] && Distinct(ids[..p])
  {
    FirstRepeatMeaning(NoteIds(batches));
  }

  /** Once both bounds hold, the verdict is decided by the first repeated note ID alone. */
  lemma OutcomeWithinLimits(batches: seq<NoteBatch>, limits: Limits)
    requires WithinLimits(batches, limits)
    ensures var ids := NoteIds(batches);
      ValidationOutcome(batches, limits)
        == if FirstRepeat(ids).Some? then Err(DuplicateNoteFound(ids[FirstRepeat(ids).value])) else Ok(())
  {
  }

  /** An ID already seen, after a repeat-free prefix, is the first repeat. */
  lemma RepeatFoundAt<T>(ids: seq<T>, pos: nat)
    requires pos < |ids|
    requires FirstRepeat(ids[..pos]) == None
    requires ids[pos] in ids[..pos]
    ensures FirstRepeat(ids) == Some(pos)
  {
    var t := ids[..pos + 1];
    assert t[..pos] == ids[..pos];
    FirstRepeatExtend(t, ids[pos + 1..]);
    assert t + ids[pos + 1..] == ids;
  }

  /** An ID not seen before extends a repeat-free prefix by one. */
  lemma NoRepeatStep<T>(ids: seq<T>, pos: nat)
    requires pos < |ids|
    requires FirstRepeat(ids[..pos]) == None
    requires ids[pos] !in ids[..pos]
    ensures FirstRepeat(ids[..pos + 1]) == None
    ensures Elements(ids[..pos + 1]) == Elements(ids[..pos]) + {ids[pos]}
  {
    assert ids[..pos + 1] == ids[..pos] + [ids[pos]];
    assert ids[..pos + 1][..pos] == ids[..pos];
  }

  /** Block validation as the block code runs it: two passes over the batches and a growing set of seen IDs. */
  method Validate(block: Block, limits: Limits) returns (r: Result<(), BlockError>)
    ensures r == ValidationOutcome(block.createdNotes, limits)
  {
    var batches := block.createdNotes;
    var batchCount := |batches|;
    if batchCount > limits.maxBatchesPerBlock {
      return Err(TooManyTransactionBatches(batchCount));
    }

    var i := 0;
    while i < |batches|
      invariant 0 <= i <= |batches|
      invariant forall k :: 0 <= k < i ==> |batches[k]| <= limits.maxNotesPerBatch
    {
      if |batches[i]| > limits.maxNotesPerBatch {
        return Err(TooManyNotesInBatch(|batches[i]|));
      }
      i := i + 1;
    }

    OutcomeWithinLimits(batches, limits);
    r := CheckNoteIdsUnique(batches);
  }

  /**
    The duplicate scan of block validation: note IDs batch by batch, each
    inserted into a set of IDs seen so far; the first one already there is
    reported.
   */
  method CheckNoteIdsUnique(batches: seq<NoteBatch>) returns (r: Result<(), BlockError>)
    ensures var ids := NoteIds(batches);
      r == if FirstRepeat(ids).Some? then Err(DuplicateNoteFound(ids[FirstRepeat(ids).value])) else Ok(())
  {
    var seen: set<NoteId> := {};
    ghost var idss := BatchIds(batches);
    ghost var ids := NoteIds(batches);
    ghost var pos: nat := 0;
    var i := 0;
    while i < |batches|
      invariant 0 <= i <= |batches|
      invariant pos == Offset(idss, i) <= |ids|
      invariant seen == Elements(ids[..pos])
      invariant FirstRepeat(ids[..pos]) == None
    {
      var batch := batches[i];
      var j := 0;
      while j < |batch|
        invariant 0 <= j <= |batch|
        invariant pos == Offset(idss, i) + j <= |ids|
        invariant seen == Elements(ids[..pos])
        invariant FirstRepeat(ids[..pos]) == None
      {
        var id := batch[j].id;
        FlattenAt(idss, i, j);
        if id in seen {
          RepeatFoundAt(ids, pos);
          return Err(DuplicateNoteFound(id));
        }
        NoRepeatStep(ids, pos);
        seen := seen + {id};
        pos := pos + 1;
        j := j + 1;
      }
      OffsetNext(idss, i);
      i := i + 1;
    }
    OffsetAll(idss);
    assert ids[..pos] == ids;
    return Ok(());
  }

  /** Block construction: the components are kept as given, and the block exists only if it passes validation. */
  function NewBlock(
    header: BlockHeader,
    updatedAccounts: seq<BlockAccountUpdate>,
    createdNotes: seq<NoteBatch>,
    createdNullifiers: seq<Nullifier>,
    limits: Limits): (r: Result<Block, BlockError>)
    ensures r.Ok? <==> SatisfiesRules(createdNotes, limits)
    ensures r.Ok? ==> r.value == Block(header, updatedAccounts, createdNotes, createdNullifiers)
    ensures r.Ok? ==> Valid(r.value, limits)
    ensures r.Err? ==> ValidationOutcome(createdNotes, limits) == Err(r.error)
  {
    var block := Block(header, updatedAccounts, createdNotes, createdNullifiers);
    ValidationOutcomeMeaning(createdNotes, limits);
    match ValidationOutcome(block.createdNotes, limits)
    case Err(e) => Err(e)
    case Ok(_) => Ok(block)
  }

  // ----------------------------------------------------------------------------------------
  // Flat views of notes and transactions
  // ----------------------------------------------------------------------------------------

  /** Each batch's notes paired with their note-tree index. */
  function NoteEntries(batches: seq<NoteBatch>): (ess: seq<seq<(BlockNoteIndex, OutputNote)>>)
    ensures |ess| == |batches|
    ensures forall i :: 0 <= i < |batches| ==> |ess[i]| == |batches[i]|
    ensures forall i, j :: 0 <= i < |batches| && 0 <= j < |batches[i]| ==>
      ess[i][j] == (BlockNoteIndex(i, j), batches[i][j])
  {
    seq(|batches|, i requires 0 <= i < |batches| =>
      seq(|batches[i]|, j requires 0 <= j < |batches[i]| => (BlockNoteIndex(i, j), batches[i][j])))
  }

  /** All notes of the block with their note-tree index, in batch-major order. */
  function Notes(block: Block): seq<(BlockNoteIndex, OutputNote)>
  {
    Flatten(NoteEntries(block.createdNotes))
  }

  /** There is one entry per note. */
  lemma NotesLength(block: Block)
    ensures |Notes(block)| == TotalLength(block.createdNotes)
  {
    TotalLengthSameShape(NoteEntries(block.createdNotes), block.createdNotes);
  }

  /** Note `j` of batch `i` is listed at position `Offset(i) + j` with index `(i, j)`. */
  lemma NotesAt(block: Block, i: nat, j: nat)
    requires i < |block.createdNotes| && j < |block.createdNotes[i]|
    ensures Offset(block.createdNotes, i) + j < |Notes(block)|
    ensures Notes(block)[Offset(block.createdNotes, i) + j]
            == (BlockNoteIndex(i, j), block.createdNotes[i][j])
  {
    var ess := NoteEntries(block.createdNotes);
    OffsetSameShape(ess, block.createdNotes, i);
    FlattenAt(ess, i, j);
  }

  /** Every entry's index addresses the note it is paired with. */
  lemma NoteEntryAddressesNote(block: Block, k: nat)
    requires k < |Notes(block)|
    ensures var (idx, note) := Notes(block)[k];
      && idx.batchIdx < |block.createdNotes|
      && idx.noteIdxInBatch < |block.createdNotes[idx.batchIdx]|
      && note == block.createdNotes[idx.batchIdx][idx.noteIdxInBatch]
      && k == Offset(block.createdNotes, idx.batchIdx) + idx.noteIdxInBatch
  {
    var ess := NoteEntries(block.createdNotes);
    var i, j := FlattenLocate(ess, k);
    OffsetSameShape(ess, block.createdNotes, i);
  }

  /** Lexicographic order on note-tree indices. */
  predicate IndexBefore(a: BlockNoteIndex, b: BlockNoteIndex)
  {
    a.batchIdx < b.batchIdx || (a.batchIdx == b.batchIdx && a.noteIdxInBatch < b.noteIdxInBatch)
  }

  /** Entries come in strictly increasing index order, so no index is listed twice. */
  lemma NotesBatchMajor(block: Block, k1: nat, k2: nat)
    requires k1 < k2 < |Notes(block)|
    ensures IndexBefore(Notes(block)[k1].0, Notes(block)[k2].0)
  {
    NoteEntryAddressesNote(block, k1);
    NoteEntryAddressesNote(block, k2);
    var a, b := Notes(block)[k1].0, Notes(block)[k2].0;
    if a.batchIdx > b.batchIdx {
      OffsetMonotone(block.createdNotes, b.batchIdx, a.batchIdx);
    } else if a.batchIdx < b.batchIdx {
    }
  }

  /** In a valid block every note-tree index lies within the protocol bounds. */
  lemma NoteIndexWithinLimits(block: Block, limits: Limits, k: nat)
    requires Valid(block, limits)
    requires k < |Notes(block)|
    ensures Notes(block)[k].0.batchIdx < limits.maxBatchesPerBlock
    ensures Notes(block)[k].0.noteIdxInBatch < limits.maxNotesPerBatch
  {
    NoteEntryAddressesNote(block, k);
  }

  /** The IDs that validation checks for repeats are exactly the IDs of `Notes`, position by position. */
  lemma NoteIdsMatchNotes(block: Block, k: nat)
    requires k < |Notes(block)|
    ensures |NoteIds(block.createdNotes)| == |Notes(block)|
    ensures NoteIds(block.createdNotes)[k] == Notes(block)[k].1.id
  {
    var batches := block.createdNotes;
    var idss := BatchIds(batches);
    NotesLength(block);
    TotalLengthSameShape(idss, batches);
    NoteEntryAddressesNote(block, k);
    var idx := Notes(block)[k].0;
    OffsetSameShape(idss, batches, idx.batchIdx);
    FlattenAt(idss, idx.batchIdx, idx.noteIdxInBatch);
  }

  /** The transaction IDs of one update, each paired with the update's account. */
  function UpdatePairs(update: BlockAccountUpdate): (ps: seq<(TransactionId, AccountId)>)
    ensures |ps| == |update.transactions|
    ensures forall j :: 0 <= j < |ps| ==> ps[j] == (update.transactions[j], update.accountId)
  {
    seq(|update.transactions|, j requires 0 <= j < |update.transactions| =>
      (update.transactions[j], update.accountId))
  }

  function TransactionLists(updates: seq<BlockAccountUpdate>): (tss: seq<seq<TransactionId>>)
    ensures |tss| == |updates|
    ensures forall i :: 0 <= i < |updates| ==> tss[i] == updates[i].transactions
  {
    seq(|updates|, i requires 0 <= i < |updates| => updates[i].transactions)
  }

  function PairLists(updates: seq<BlockAccountUpdate>): (pss: seq<seq<(TransactionId, AccountId)>>)
    ensures |pss| == |updates|
    ensures forall i :: 0 <= i < |updates| ==> pss[i] == UpdatePairs(updates[i])
  {
    seq(|updates|, i requires 0 <= i < |updates| => UpdatePairs(updates[i]))
  }

  /** Every transaction of every updated account, with that account's ID, update by update. */
  function Transactions(block: Block): seq<(TransactionId, AccountId)>
  {
    Flatten(PairLists(block.updatedAccounts))
  }

  /** There is one pair per transaction ID. */
  lemma TransactionsLength(block: Block)
    ensures |Transactions(block)| == TotalLength(TransactionLists(block.updatedAccounts))
  {
    TotalLengthSameShape(PairLists(block.updatedAccounts), TransactionLists(block.updatedAccounts));
  }

  /** Transaction `j` of update `i` is listed at position `Offset(i) + j`, with update `i`'s account. */
  lemma TransactionsAt(block: Block, i: nat, j: nat)
    requires i < |block.updatedAccounts| && j < |block.updatedAccounts[i].transactions|
    ensures var u := block.updatedAccounts;
      && Offset(TransactionLists(u), i) + j < |Transactions(block)|
      && Transactions(block)[Offset(TransactionLists(u), i) + j] == (u[i].transactions[j], u[i].accountId)
  {
    var u := block.updatedAccounts;
    OffsetSameShape(PairLists(u), TransactionLists(u), i);
    FlattenAt(PairLists(u), i, j);
  }

  /** Every listed pair is some update's transaction with that update's account. */
  lemma TransactionFromUpdate(block: Block, k: nat) returns (i: nat, j: nat)
    requires k < |Transactions(block)|
    ensures i < |block.updatedAccounts| && j < |block.updatedAccounts[i].transactions|
    ensures Transactions(block)[k]
            == (block.updatedAccounts[i].transactions[j], block.updatedAccounts[i].accountId)
  {
    i, j := FlattenLocate(PairLists(block.updatedAccounts), k);
  }

  // ----------------------------------------------------------------------------------------
  // Transaction commitment layout
  // ----------------------------------------------------------------------------------------

  /** The elements hashed into the transaction commitment: eight per pair, `[account, 0, 0, 0]` then the ID. */
  function TxHashElements(txs: seq<(TransactionId, AccountId)>): (e: seq<Felt>)
    ensures |e| == 8 * |txs|
    ensures forall k :: 0 <= k < |txs| ==>
      e[8 * k .. 8 * k + 8] == [txs[k].1, ZERO, ZERO, ZERO] + txs[k].0
  {
    if |txs| == 0 then []
    else
      var n := |txs| - 1;
      var init := TxHashElements(txs[..n]);
      var last := [txs[n].1, ZERO, ZERO, ZERO] + txs[n].0;
      var e := init + last;
      assert e[8 * n .. 8 * n + 8] == last;
      assert forall k :: 0 <= k < n ==> e[8 * k .. 8 * k + 8] == [txs[k].1, ZERO, ZERO, ZERO] + txs[k].0 by {
        forall k | 0 <= k < n
          ensures e[8 * k .. 8 * k + 8] == [txs[k].1, ZERO, ZERO, ZERO] + txs[k].0
        {
          assert 8 * k + 8 <= 8 * n == |init|;
          assert e[8 * k .. 8 * k + 8] == init[8 * k .. 8 * k + 8];
          assert txs[..n][k] == txs[k];
        }
      }
      e
  }

  /**
    The transaction commitment: the pairs laid out element by element, then
    hashed. The hash function is a parameter; its definition is not part
    of this model.
   */
  method ComputeTxHash(txs: seq<(TransactionId, AccountId)>, hashElements: seq<Felt> -> Digest)
    returns (d: Digest)
    ensures d == hashElements(TxHashElements(txs))
  {
    var elements: seq<Felt> := [];
    var i := 0;
    while i < |txs|
      invariant 0 <= i <= |txs|
      invariant elements == TxHashElements(txs[..i])
    {
      var (transactionId, accountId) := txs[i];
      elements := elements + [accountId, ZERO, ZERO, ZERO];
      elements := elements + transactionId;
      assert txs[..i + 1][..i] == txs[..i];
      i := i + 1;
    }
    assert txs[..i] == txs;
    d := hashElements(elements);
  }
}

=== FILE: block_serde.dfy ===
/**
  The field order in which a block and its account updates are written and
  read back. Each foreign value (header, account ID, digest, update details,
  note) is one token: its byte encoding is not part of this model. A vector
  is written as its length followed by its items.
 */
module BlockSerde {
  import opened Common
  import opened Blocks

  datatype Token =
    | THeader(header: BlockHeader)
    | TLen(len: nat)
    | TAccountId(id: AccountId)
    | TDigest(digest: Digest)
    | TDetails(details: AccountUpdateDetails)
    | TNote(note: OutputNote)

  /** Why a value could not be read: a token of the wrong kind, or a block that breaks the block rules. */
  datatype InvalidCause = Malformed(expected: string) | Rejected(error: BlockError)

  datatype DeserializationError = UnexpectedEOF | InvalidValue(cause: InvalidCause)

  type Read<T> = Result<(T, seq<Token>), DeserializationError>

  // ----------------------------------------------------------------------------------------
  // Writers
  // ----------------------------------------------------------------------------------------

  function DigestItems(ds: seq<Digest>): seq<Token>
  {
    if |ds| == 0 then [] else [TDigest(ds[0])] + DigestItems(ds[1..])
  }

  function WriteDigests(ds: seq<Digest>): seq<Token>
  {
    [TLen(|ds|)] + DigestItems(ds)
  }

  /** An account update: account ID, new state hash, details, then its transaction IDs. */
  function WriteUpdate(u: BlockAccountUpdate): seq<Token>
  {
    [TAccountId(u.accountId), TDigest(u.newStateHash), TDetails(u.details)] + WriteDigests(u.transactions)
  }

  function UpdateItems(us: seq<BlockAccountUpdate>): seq<Token>
  {
    if |us| == 0 then [] else WriteUpdate(us[0]) + UpdateItems(us[1..])
  }

  function WriteUpdates(us: seq<BlockAccountUpdate>): seq<Token>
  {
    [TLen(|us|)] + UpdateItems(us)
  }

  function NoteItems(ns: seq<OutputNote>): seq<Token>
  {
    if |ns| == 0 then [] else [TNote(ns[0])] + NoteItems(ns[1..])
  }

  function WriteBatch(batch: NoteBatch): seq<Token>
  {
    [TLen(|batch|)] + NoteItems(batch)
  }

  function BatchItems(bs: seq<NoteBatch>): seq<Token>
  {
    if |bs| == 0 then [] else WriteBatch(bs[0]) + BatchItems(bs[1..])
  }

  function WriteBatches(bs: seq<NoteBatch>): seq<Token>
  {
    [TLen(|bs|)] + BatchItems(bs)
  }

  /** A block: header, account updates, note batches, nullifiers. */
  function WriteBlock(b: Block): seq<Token>
  {
    [THeader(b.header)] + WriteUpdates(b.updatedAccounts) + WriteBatches(b.createdNotes)
      + WriteDigests(b.createdNullifiers)
  }

  // ----------------------------------------------------------------------------------------
  // Readers: each one consumes exactly the tokens of the value it returns
  // ----------------------------------------------------------------------------------------

  function ReadLen(s: seq<Token>): (r: Read<nat>)
    ensures r.Ok? ==> s == [TLen(r.value.0)] + r.value.1
  {
    if |s| == 0 then Err(UnexpectedEOF)
    else if s[0].TLen? then Ok((s[0].len, s[1..]))
    else Err(InvalidValue(Malformed("length")))
  }

  /** A length token, the items it counts and the rest of the input, regrouped. */
  lemma LengthPrefixed(s: seq<Token>, n: nat, afterLen: seq<Token>, items: seq<Token>, rest: seq<Token>)
    requires s == [TLen(n)] + afterLen && afterLen == items + rest
    ensures s == ([TLen(n)] + items) + rest
  {
  }

  function ReadHeader(s: seq<Token>): (r: Read<BlockHeader>)
    ensures r.Ok? ==> s == [THeader(r.value.0)] + r.value.1
  {
    if |s| == 0 then Err(UnexpectedEOF)
    else if s[0].THeader? then Ok((s[0].header, s[1..]))
    else Err(InvalidValue(Malformed("block header")))
  }

  function ReadAccountId(s: seq<Token>): (r: Read<AccountId>)
    ensures r.Ok? ==> s == [TAccountId(r.value.0)] + r.value.1
  {
    if |s| == 0 then Err(UnexpectedEOF)
    else if s[0].TAccountId? then Ok((s[0].id, s[1..]))
    else Err(InvalidValue(Malformed("account ID")))
  }

  function ReadDigest(s: seq<Token>): (r: Read<Digest>)
    ensures r.Ok? ==> s == [TDigest(r.value.0)] + r.value.1
  {
    if |s| == 0 then Err(UnexpectedEOF)
    else if s[0].TDigest? then Ok((s[0].digest, s[1..]))
    else Err(InvalidValue(Malformed("digest")))
  }

  function ReadDetails(s: seq<Token>): (r: Read<AccountUpdateDetails>)
    ensures r.Ok? ==> s == [TDetails(r.value.0)] + r.value.1
  {
    if |s| == 0 then Err(UnexpectedEOF)
    else if s[0].TDetails? then Ok((s[0].details, s[1..]))
    else Err(InvalidValue(Malformed("account update details")))
  }

  function ReadNote(s: seq<Token>): (r: Read<OutputNote>)
    ensures r.Ok? ==> s == [TNote(r.value.0)] + r.value.1
  {
    if |s| == 0 then Err(UnexpectedEOF)
    else if s[0].TNote? then Ok((s[0].note, s[1..]))
    else Err(InvalidValue(Malformed("output note")))
  }

  function ReadDigestItems(s: seq<Token>, n: nat): (r: Read<seq<Digest>>)
    ensures r.Ok? ==> |r.value.0| == n && s == DigestItems(r.value.0) + r.value.1
    decreases n
  {
    if n == 0 then Ok(([], s))
    else
      var head :- ReadDigest(s);
      var tail :- ReadDigestItems(head.1, n - 1);
      assert DigestItems([head.0] + tail.0) == [TDigest(head.0)] + DigestItems(tail.0) by {
        assert ([head.0] + tail.0)[1..] == tail.0;
      }
      Ok(([head.0] + tail.0, tail.1))
  }

  function ReadDigests(s: seq<Token>): (r: Read<seq<Digest>>)
    ensures r.Ok? ==> s == WriteDigests(r.value.0) + r.value.1
  {
    var len :- ReadLen(s);
    var items :- ReadDigestItems(len.1, len.0);
    LengthPrefixed(s, len.0, len.1, DigestItems(items.0), items.1);
    Ok(items)
  }

  function ReadUpdate(s: seq<Token>): (r: Read<BlockAccountUpdate>)
    ensures r.Ok? ==> s == WriteUpdate(r.value.0) + r.value.1
  {
    var accountId :- ReadAccountId(s);
    var newStateHash :- ReadDigest(accountId.1);
    var details :- ReadDetails(newStateHash.1);
    var transactions :- ReadDigests(details.1);
    var u := BlockAccountUpdate(accountId.0, newStateHash.0, details.0, transactions.0);
    UpdateTokens(u, transactions.1);
    Ok((u, transactions.1))
  }

  /** The tokens of an update followed by more input, grouped field by field. */
  lemma UpdateTokens(u: BlockAccountUpdate, rest: seq<Token>)
    ensures WriteUpdate(u) + rest
      == [TAccountId(u.accountId)] + ([TDigest(u.newStateHash)] + ([TDetails(u.details)] + (WriteDigests(u.transactions) + rest)))
  {
  }

  function ReadUpdateItems(s: seq<Token>, n: nat): (r: Read<seq<BlockAccountUpdate>>)
    ensures r.Ok? ==> |r.value.0| == n && s == UpdateItems(r.value.0) + r.value.1
    decreases n
  {
    if n == 0 then Ok(([], s))
    else
      var head :- ReadUpdate(s);
      var tail :- ReadUpdateItems(head.1, n - 1);
      UpdateItemsCons(head.0, tail.0, tail.1);
      Ok(([head.0] + tail.0, tail.1))
  }

  function ReadUpdates(s: seq<Token>): (r: Read<seq<BlockAccountUpdate>>)
    ensures r.Ok? ==> s == WriteUpdates(r.value.0) + r.value.1
  {
    var len :- ReadLen(s);
    var items :- ReadUpdateItems(len.1, len.0);
    LengthPrefixed(s, len.0, len.1, UpdateItems(items.0), items.1);
    Ok(items)
  }

  function ReadNoteItems(s: seq<Token>, n: nat): (r: Read<seq<OutputNote>>)
    ensures r.Ok? ==> |r.value.0| == n && s == NoteItems(r.value.0) + r.value.1
    decreases n
  {
    if n == 0 then Ok(([], s))
    else
      var head :- ReadNote(s);
      var tail :- ReadNoteItems(head.1, n - 1);
      assert NoteItems([head.0] + tail.0) == [TNote(head.0)] + NoteItems(tail.0) by {
        assert ([head.0] + tail.0)[1..] == tail.0;
      }
      Ok(([head.0] + tail.0, tail.1))
  }

  function ReadBatch(s: seq<Token>): (r: Read<NoteBatch>)
    ensures r.Ok? ==> s == WriteBatch(r.value.0) + r.value.1
  {
    var len :- ReadLen(s);
    var items :- ReadNoteItems(len.1, len.0);
    LengthPrefixed(s, len.0, len.1, NoteItems(items.0), items.1);
    Ok(items)
  }

  function ReadBatchItems(s: seq<Token>, n: nat): (r: Read<seq<NoteBatch>>)
    ensures r.Ok? ==> |r.value.0| == n && s == BatchItems(r.value.0) + r.value.1
    decreases n
  {
    if n == 0 then Ok(([], s))
    else
      var head :- ReadBatch(s);
      var tail :- ReadBatchItems(head.1, n - 1);
      BatchItemsCons(head.0, tail.0, tail.1);
      Ok(([head.0] + tail.0, tail.1))
  }

  function ReadBatches(s: seq<Token>): (r: Read<seq<NoteBatch>>)
    ensures r.Ok? ==> s == WriteBatches(r.value.0) + r.value.1
  {
    var len :- ReadLen(s);
    var items :- ReadBatchItems(len.1, len.0);
    LengthPrefixed(s, len.0, len.1, BatchItems(items.0), items.1);
    Ok(items)
  }

  /**
    Block decoding: the four fields in the order they are written, then the
    same validation as block construction; a block that breaks the rules is
    rejected as an invalid value.
   */
  function ReadBlock(s: seq<Token>, limits: Limits): (r: Read<Block>)
    ensures r.Ok? ==> Valid(r.value.0, limits)
    ensures r.Ok? ==> s == WriteBlock(r.value.0) + r.value.1
  {
    var header :- ReadHeader(s);
    var updates :- ReadUpdates(header.1);
    var batches :- ReadBatches(updates.1);
    var nullifiers :- ReadDigests(batches.1);
    var block := Block(header.0, updates.0, batches.0, nullifiers.0);
    ValidationOutcomeMeaning(block.createdNotes, limits);
    ConcatAssoc([THeader(block.header)], WriteUpdates(block.updatedAccounts),
      WriteBatches(block.createdNotes), WriteDigests(block.createdNullifiers), nullifiers.1);
    match ValidationOutcome(block.createdNotes, limits)
    case Err(e) => Err(InvalidValue(Rejected(e)))
    case Ok(_) => Ok((block, nullifiers.1))
  }

  /** The tokens of a non-empty list of updates: the first update, then the others. */
  lemma UpdateItemsCons(u: BlockAccountUpdate, us: seq<BlockAccountUpdate>, rest: seq<Token>)
    ensures UpdateItems([u] + us) + rest == WriteUpdate(u) + (UpdateItems(us) + rest)
  {
    assert ([u] + us)[1..] == us;
  }

  /** The tokens of a non-empty list of batches: the first batch, then the others. */
  lemma BatchItemsCons(b: NoteBatch, bs: seq<NoteBatch>, rest: seq<Token>)
    ensures BatchItems([b] + bs) + rest == WriteBatch(b) + (BatchItems(bs) + rest)
  {
    assert ([b] + bs)[1..] == bs;
  }

  lemma ConcatAssoc<T>(a: seq<T>, b: seq<T>, c: seq<T>, d: seq<T>, e: seq<T>)
    ensures a + b + c + d + e == a + (b + (c + (d + e)))
  {
  }

  // ----------------------------------------------------------------------------------------
  // Round trips
  // ----------------------------------------------------------------------------------------

  lemma {:induction false} DigestItemsRoundTrip(ds: seq<Digest>, rest: seq<Token>)
    ensures ReadDigestItems(DigestItems(ds) + rest, |ds|) == Ok((ds, rest))
  {
    if |ds| > 0 {
      var s := DigestItems(ds) + rest;
      var tail := DigestItems(ds[1..]) + rest;
      assert s == [TDigest(ds[0])] + tail;
      assert ReadDigest(s) == Ok((ds[0], tail)) by { assert s[1..] == tail; }
      DigestItemsRoundTrip(ds[1..], rest);
      assert [ds[0]] + ds[1..] == ds;
    } else {
      assert DigestItems(ds) + rest == rest;
    }
  }

  lemma DigestsRoundTrip(ds: seq<Digest>, rest: seq<Token>)
    ensures ReadDigests(WriteDigests(ds) + rest) == Ok((ds, rest))
  {
    assert WriteDigests(ds) + rest == [TLen(|ds|)] + (DigestItems(ds) + rest);
    DigestItemsRoundTrip(ds, rest);
  }

  /** An account update reads back field for field. */
  lemma UpdateRoundTrip(u: BlockAccountUpdate, rest: seq<Token>)
    ensures ReadUpdate(WriteUpdate(u) + rest) == Ok((u, rest))
  {
    UpdateTokens(u, rest);
    DigestsRoundTrip(u.transactions, rest);
  }

  lemma {:induction false} UpdateItemsRoundTrip(us: seq<BlockAccountUpdate>, rest: seq<Token>)
    ensures ReadUpdateItems(UpdateItems(us) + rest, |us|) == Ok((us, rest))
  {
    if |us| > 0 {
      var s := UpdateItems(us) + rest;
      var tail := UpdateItems(us[1..]) + rest;
      assert s == WriteUpdate(us[0]) + tail;
      UpdateRoundTrip(us[0], tail);
      UpdateItemsRoundTrip(us[1..], rest);
      assert [us[0]] + us[1..] == us;
    } else {
      assert UpdateItems(us) + rest == rest;
    }
  }

  lemma UpdatesRoundTrip(us: seq<BlockAccountUpdate>, rest: seq<Token>)
    ensures ReadUpdates(WriteUpdates(us) + rest) == Ok((us, rest))
  {
    assert WriteUpdates(us) + rest == [TLen(|us|)] + (UpdateItems(us) + rest);
    UpdateItemsRoundTrip(us, rest);
  }

  lemma {:induction false} NoteItemsRoundTrip(ns: seq<OutputNote>, rest: seq<Token>)
    ensures ReadNoteItems(NoteItems(ns) + rest, |ns|) == Ok((ns, rest))
  {
    if |ns| > 0 {
      var s := NoteItems(ns) + rest;
      var tail := NoteItems(ns[1..]) + rest;
      assert s == [TNote(ns[0])] + tail;
      assert ReadNote(s) == Ok((ns[0], tail)) by { assert s[1..] == tail; }
      NoteItemsRoundTrip(ns[1..], rest);
      assert [ns[0]] + ns[1..] == ns;
    } else {
      assert NoteItems(ns) + rest == rest;
    }
  }

  lemma BatchRoundTrip(batch: NoteBatch, rest: seq<Token>)
    ensures ReadBatch(WriteBatch(batch) + rest) == Ok((batch, rest))
  {
    assert WriteBatch(batch) + rest == [TLen(|batch|)] + (NoteItems(batch) + rest);
    NoteItemsRoundTrip(batch, rest);
  }

  lemma {:induction false} BatchItemsRoundTrip(bs: seq<NoteBatch>, rest: seq<Token>)
    ensures ReadBatchItems(BatchItems(bs) + rest, |bs|) == Ok((bs, rest))
  {
    if |bs| > 0 {
      var s := BatchItems(bs) + rest;
      var tail := BatchItems(bs[1..]) + rest;
      assert s == WriteBatch(bs[0]) + tail;
      BatchRoundTrip(bs[0], tail);
      BatchItemsRoundTrip(bs[1..], rest);
      assert [bs[0]] + bs[1..] == bs;
    } else {
      assert BatchItems(bs) + rest == rest;
    }
  }

  lemma BatchesRoundTrip(bs: seq<NoteBatch>, rest: seq<Token>)
    ensures ReadBatches(WriteBatches(bs) + rest) == Ok((bs, rest))
  {
    assert WriteBatches(bs) + rest == [TLen(|bs|)] + (BatchItems(bs) + rest);
    BatchItemsRoundTrip(bs, rest);
  }

  /**
    A written block reads back as itself when it satisfies the block rules,
    and is rejected with its validation error when it does not.
   */
  lemma BlockRoundTrip(b: Block, limits: Limits, rest: seq<Token>)
    ensures Valid(b, limits) ==> ReadBlock(WriteBlock(b) + rest, limits) == Ok((b, rest))
    ensures !Valid(b, limits) ==>
      && ValidationOutcome(b.createdNotes, limits).Err?
      && ReadBlock(WriteBlock(b) + rest, limits)
           == Err(InvalidValue(Rejected(ValidationOutcome(b.createdNotes, limits).error)))
  {
    var afterHeader := WriteUpdates(b.updatedAccounts) + WriteBatches(b.createdNotes)
      + WriteDigests(b.createdNullifiers) + rest;
    var afterUpdates := WriteBatches(b.createdNotes) + WriteDigests(b.createdNullifiers) + rest;
    var afterBatches := WriteDigests(b.createdNullifiers) + rest;
    assert WriteBlock(b) + rest == [THeader(b.header)] + afterHeader;
    assert afterHeader == WriteUpdates(b.updatedAccounts) + afterUpdates;
    assert afterUpdates == WriteBatches(b.createdNotes) + afterBatches;
    UpdatesRoundTrip(b.updatedAccounts, afterUpdates);
    BatchesRoundTrip(b.createdNotes, afterBatches);
    DigestsRoundTrip(b.createdNullifiers, rest);
    ValidationOutcomeMeaning(b.createdNotes, limits);
  }
}

=== FILE: common.dfy ===
/**
  Shared vocabulary of the model: field elements, words and digests,
  the Option and Result wrappers, and output notes.
 */
module Common {

  /** The Goldilocks prime 2^64 - 2^32 + 1; every field element is below it. */
  const MODULUS: nat := 0xFFFF_FFFF_0000_0001

  /** Largest value of a Rust `u32`. */
  const U32_MAX: nat := 0xFFFF_FFFF

  /** A field element, held by its canonical integer value. */
  type Felt = x: nat | x < MODULUS

  const ZERO: Felt := 0

  /** Four field elements; digests and words share this shape. */
  type Word = w: seq<Felt> | |w| == 4 witness [0, 0, 0, 0]

  type Digest = Word

  const EMPTY_WORD: Word := [0, 0, 0, 0]

  datatype Option<+T> = None | Some(value: T)

  /** The outcome of a fallible step; usable with `:-`, which propagates an `Err` as Rust's `?` does. */
  datatype Result<+T, +E> = Ok(value: T) | Err(error: E)
  {
    predicate IsFailure()
    {
      Err?
    }

    function PropagateFailure<U>(): Result<U, E>
      requires Err?
    {
      Err(error)
    }

    function Extract(): T
      requires Ok?
    {
      value
    }
  }

  /** A note produced by a transaction; only its ID and metadata word matter here. */
  datatype OutputNote = OutputNote(id: Digest, metadata: Word)
}

=== FILE: proxy_responses.dfy ===
/**
  The proving-service proxy's canned status responses: a response header
  is built with a status code and a few headers, the connection is marked
  not to be kept alive, and the header is written to the client session.
 */
module ProxyResponses {
  import opened Common

  // ----------------------------------------------------------------------------------------
  // Decimal rendering (`to_string` on Rust integers)
  // ----------------------------------------------------------------------------------------

  /** Range of a 64-bit Rust `usize` and `isize`. */
  type USize = x: nat | x < 0x1_0000_0000_0000_0000
  type ISize = x: int | -0x8000_0000_0000_0000 <= x < 0x8000_0000_0000_0000

  predicate IsDigit(c: char)
  {
    '0' <= c <= '9'
  }

  predicate AllDigits(s: string)
  {
    forall i :: 0 <= i < |s| ==> IsDigit(s[i])
  }

  function DigitChar(d: nat): (c: char)
    requires d < 10
    ensures IsDigit(c)
  {
    ('0' as int + d) as char
  }

  function DigitValue(c: char): nat
    requires IsDigit(c)
  {
    c as int - '0' as int
  }

  /** Decimal digits of `n`, most significant first, without leading zeros. */
  function NatDecimal(n: nat): (s: string)
    ensures 1 <= |s| && AllDigits(s)
    ensures s[0] == '0' ==> n == 0 && s == "0"
  {
    if n < 10 then [DigitChar(n)] else NatDecimal(n / 10) + [DigitChar(n % 10)]
  }

  /** Decimal rendering of a signed integer: a minus sign before the magnitude when negative. */
  function IntDecimal(i: int): (s: string)
    ensures 1 <= |s|
    ensures i < 0 <==> s[0] == '-'
    ensures AllDigits(if i < 0 then s[1..] else s)
    ensures |if i < 0 then s[1..] else s| >= 1
    ensures (if i < 0 then s[1..] else s)[0] == '0' ==> i == 0
  {
    if i < 0 then "-" + NatDecimal(-i) else NatDecimal(i)
  }

  /** The number a string of decimal digits denotes. */
  function DecimalValue(s: string): nat
    requires AllDigits(s)
  {
    if |s| == 0 then 0 else DecimalValue(s[..|s| - 1]) * 10 + DigitValue(s[|s| - 1])
  }

  /** The number an optionally signed string of digits denotes. */
  function SignedValue(s: string): int
    requires 1 <= |s|
    requires AllDigits(if s[0] == '-' then s[1..] else s)
  {
    if s[0] == '-' then -(DecimalValue(s[1..]) as int) else DecimalValue(s)
  }

  /** Rendering then reading a natural number gives it back. */
  lemma {:induction false} NatDecimalRoundTrip(n: nat)
    ensures DecimalValue(NatDecimal(n)) == n
  {
    var s := NatDecimal(n);
    if n < 10 {
      assert s[..0] == [];
    } else {
      NatDecimalRoundTrip(n / 10);
      assert s[..|s| - 1] == NatDecimal(n / 10);
    }
  }

  /** Rendering then reading a signed integer gives it back. */
  lemma IntDecimalRoundTrip(i: int)
    ensures SignedValue(IntDecimal(i)) == i
  {
    if i < 0 {
      var digits := NatDecimal(-i);
      assert IntDecimal(i) == "-" + digits;
      assert ("-" + digits)[1..] == digits;
      NatDecimalRoundTrip(-i);
    } else {
      NatDecimalRoundTrip(i);
    }
  }

  // ----------------------------------------------------------------------------------------
  // Response headers
  // ----------------------------------------------------------------------------------------

  /** Pingora's error kinds met here. */
  datatype ErrorType = HTTPStatus(code: nat) | InvalidHTTPHeader | WriteError

  /** A Pingora error: its kind, optional context and optional cause. */
  datatype PingoraError = PingoraError(etype: ErrorType, context: Option<string>, cause: Option<string>)

  /** A status code outside 100..=999 or an invalid header value. */
  const INVALID_HEADER: PingoraError := PingoraError(InvalidHTTPHeader, None, None)

  /** A response header: status code and header fields in insertion order. */
  datatype ResponseHeader = ResponseHeader(status: nat, headers: seq<(string, string)>)

  /** An HTTP header value may hold tabs and visible characters, not other control characters. */
  predicate ValidHeaderValue(value: string)
  {
    forall i :: 0 <= i < |value| ==> value[i] == '\t' || (' ' <= value[i] && value[i] != '\U{7F}')
  }

  lemma DecimalIsValidHeaderValue(i: int)
    ensures ValidHeaderValue(IntDecimal(i))
  {
  }

  /** The value of the first field called `name`. */
  function Lookup(headers: seq<(string, string)>, name: string): Option<string>
  {
    if |headers| == 0 then None
    else if headers[0].0 == name then Some(headers[0].1)
    else Lookup(headers[1..], name)
  }

  /** Every field called `name` gets `value`; the others are kept, in place. */
  function SetAll(headers: seq<(string, string)>, name: string, value: string): (r: seq<(string, string)>)
    ensures Lookup(headers, name).Some? ==> Lookup(r, name) == Some(value)
    ensures Lookup(headers, name).None? ==> Lookup(r, name).None?
    ensures forall n :: n != name ==> Lookup(r, n) == Lookup(headers, n)
    ensures |r| == |headers|
    ensures forall k :: 0 <= k < |r| && r[k].0 == name ==> r[k].1 == value
  {
    if |headers| == 0 then []
    else
      var first := if headers[0].0 == name then (name, value) else headers[0];
      assert forall n :: (Lookup([first] + SetAll(headers[1..], name, value), n)
        == if first.0 == n then Some(first.1) else Lookup(SetAll(headers[1..], name, value), n));
      [first] + SetAll(headers[1..], name, value)
  }

  /** Appending a field does not hide an earlier field of the same name. */
  lemma {:induction false} LookupAppend(headers: seq<(string, string)>, field: (string, string), n: string)
    ensures Lookup(headers + [field], n)
      == if Lookup(headers, n).Some? then Lookup(headers, n) else if field.0 == n then Some(field.1) else None
  {
    if |headers| > 0 {
      assert (headers + [field])[1..] == headers[1..] + [field];
      LookupAppend(headers[1..], field, n);
    }
  }

  /** A name that looks up as nothing names no field at all. */
  lemma {:induction false} LookupNoneAbsent(headers: seq<(string, string)>, name: string)
    requires Lookup(headers, name).None?
    ensures forall k :: 0 <= k < |headers| ==> headers[k].0 != name
  {
    if |headers| > 0 {
      LookupNoneAbsent(headers[1..], name);
      assert forall k :: 1 <= k < |headers| ==> headers[k] == headers[1..][k - 1];
    }
  }

  /** `ResponseHeader::build`: a header with the given status and no fields; the code must be in 100..=999. */
  function BuildHeader(code: nat): (r: Result<ResponseHeader, PingoraError>)
    ensures r.Ok? <==> 100 <= code <= 999
    ensures r.Ok? ==> r.value.status == code && r.value.headers == []
    ensures r.Err? ==> r.error == INVALID_HEADER
  {
    if 100 <= code <= 999 then Ok(ResponseHeader(code, [])) else Err(INVALID_HEADER)
  }

  /**
    `insert_header`: sets `name` to `value`, replacing any earlier value of
    that name; fails, leaving nothing changed, when the value is invalid.
   */
  function InsertHeader(header: ResponseHeader, name: string, value: string): (r: Result<ResponseHeader, PingoraError>)
    ensures r.Ok? <==> ValidHeaderValue(value)
    ensures r.Err? ==> r.error == INVALID_HEADER
    ensures r.Ok? ==> r.value.status == header.status && Lookup(r.value.headers, name) == Some(value)
    ensures r.Ok? ==> forall n :: n != name ==> Lookup(r.value.headers, n) == Lookup(header.headers, n)
    ensures r.Ok? ==> forall k :: 0 <= k < |r.value.headers| && r.value.headers[k].0 == name ==> r.value.headers[k].1 == value
    ensures r.Ok? && Lookup(header.headers, name).Some? ==> |r.value.headers| == |header.headers|
    ensures r.Ok? && Lookup(header.headers, name).None? ==> |r.value.headers| == |header.headers| + 1
  {
    if !ValidHeaderValue(value) then Err(INVALID_HEADER)
    else if Lookup(header.headers, name).Some? then
      Ok(ResponseHeader(header.status, SetAll(header.headers, name, value)))
    else
      LookupNoneAbsent(header.headers, name);
      assert forall n :: (Lookup(header.headers + [(name, value)], n)
        == if n == name then Some(value) else Lookup(header.headers, n)) by {
        forall n { LookupAppend(header.headers, (name, value), n); }
      }
      Ok(ResponseHeader(header.status, header.headers + [(name, value)]))
  }

  // ----------------------------------------------------------------------------------------
  // The session and the drop counter
  // ----------------------------------------------------------------------------------------

  /** The error a failed write to the client reports. */
  const WRITE_FAILED: PingoraError := PingoraError(WriteError, None, None)

  /**
    The client session: its keep-alive timeout, the response headers written
    so far (each with its end-of-stream flag and the keep-alive setting in
    force when it was written), and how many more writes the connection will
    take before failing.
   */
  class Session {
    var keepalive: Option<nat>
    var written: seq<(ResponseHeader, bool, Option<nat>)>
    var writesLeft: nat

    constructor (writesLeft: nat)
      ensures this.keepalive.None? && this.written == [] && this.writesLeft == writesLeft
    {
      this.keepalive := None;
      this.written := [];
      this.writesLeft := writesLeft;
    }

    method SetKeepalive(timeout: Option<nat>)
      modifies this
      ensures keepalive == timeout
      ensures written == old(written) && writesLeft == old(writesLeft)
    {
      keepalive := timeout;
    }

    method WriteResponseHeader(header: ResponseHeader, endOfStream: bool) returns (r: Result<(), PingoraError>)
      modifies this
      ensures old(writesLeft) == 0 ==> r == Err(WRITE_FAILED) && written == old(written) && writesLeft == 0
      ensures old(writesLeft) > 0 ==>
        r == Ok(()) && written == old(written) + [(header, endOfStream, keepalive)] && writesLeft == old(writesLeft) - 1
      ensures keepalive == old(keepalive)
    {
      if writesLeft == 0 {
        return Err(WRITE_FAILED);
      }
      written := written + [(header, endOfStream, keepalive)];
      writesLeft := writesLeft - 1;
      return Ok(());
    }
  }

  /** A monotone metric counter. */
  class Counter {
    var value: nat

    constructor ()
      ensures value == 0
    {
      value := 0;
    }

    method Inc()
      modifies this
      ensures value == old(value) + 1
    {
      value := value + 1;
    }
  }

  // ----------------------------------------------------------------------------------------
  // The four responses
  // ----------------------------------------------------------------------------------------

  const QUEUE_FULL_MESSAGE: string := "Too many requests in the queue"

  /** gRPC status code RESOURCE_EXHAUSTED. */
  const RESOURCE_EXHAUSTED_CODE: nat := 8

  /** What the queue-full response carries: status 503 and exactly the gRPC message and status fields. */
  ghost predicate IsQueueFullHeader(h: ResponseHeader)
  {
    && h.status == 503
    && Lookup(h.headers, "grpc-message") == Some(QUEUE_FULL_MESSAGE)
    && Lookup(h.headers, "grpc-status") == Some(NatDecimal(RESOURCE_EXHAUSTED_CODE))
    && |h.headers| == 2
    && forall n :: n != "grpc-message" && n != "grpc-status" ==> Lookup(h.headers, n).None?
  }

  /** The error the queue-full response always ends with. */
  const QUEUE_FULL_ERROR: PingoraError :=
    PingoraError(HTTPStatus(503), Some(QUEUE_FULL_MESSAGE), Some(QUEUE_FULL_MESSAGE))

  /** What the rate-limit response carries: status 429 and exactly three fields: the limit, nothing remaining, reset after one second. */
  ghost predicate IsTooManyRequestsHeader(h: ResponseHeader, maxRequestPerSecond: ISize)
  {
    && h.status == 429
    && Lookup(h.headers, "X-Rate-Limit-Limit") == Some(IntDecimal(maxRequestPerSecond))
    && Lookup(h.headers, "X-Rate-Limit-Remaining") == Some("0")
    && Lookup(h.headers, "X-Rate-Limit-Reset") == Some("1")
    && |h.headers| == 3
    && forall n :: n !in {"X-Rate-Limit-Limit", "X-Rate-Limit-Remaining", "X-Rate-Limit-Reset"} ==> Lookup(h.headers, n).None?
  }

  /** What the workers-updated response carries: status 200 and the worker count as its only field. */
  ghost predicate IsWorkersUpdatedHeader(h: ResponseHeader, workers: USize)
  {
    && h.status == 200
    && Lookup(h.headers, "X-Worker-Count") == Some(NatDecimal(workers))
    && |h.headers| == 1
    && forall n :: n != "X-Worker-Count" ==> Lookup(h.headers, n).None?
  }

  /** What the error-message response carries: status 400 and the message as its only field. */
  ghost predicate IsErrorMessageHeader(h: ResponseHeader, errorMsg: string)
  {
    && h.status == 400
    && Lookup(h.headers, "X-Error-Message") == Some(errorMsg)
    && |h.headers| == 1
    && forall n :: n != "X-Error-Message" ==> Lookup(h.headers, n).None?
  }

  /** The three insertions into a fresh 429 header give exactly the rate-limit fields. */
  lemma RateLimitHeaderBuilt(h0: ResponseHeader, h1: ResponseHeader, h2: ResponseHeader, h3: ResponseHeader,
                             maxRequestPerSecond: ISize)
    requires BuildHeader(429) == Ok(h0)
    requires InsertHeader(h0, "X-Rate-Limit-Limit", IntDecimal(maxRequestPerSecond)) == Ok(h1)
    requires InsertHeader(h1, "X-Rate-Limit-Remaining", "0") == Ok(h2)
    requires InsertHeader(h2, "X-Rate-Limit-Reset", "1") == Ok(h3)
    ensures IsTooManyRequestsHeader(h3, maxRequestPerSecond)
  {
  }

  /** The limit a rate-limit response announces reads back as the configured limit. */
  lemma RateLimitReadsBack(h: ResponseHeader, maxRequestPerSecond: ISize)
    requires IsTooManyRequestsHeader(h, maxRequestPerSecond)
    ensures var v := Lookup(h.headers, "X-Rate-Limit-Limit").value;
      1 <= |v| && AllDigits(if v[0] == '-' then v[1..] else v) && SignedValue(v) == maxRequestPerSecond
  {
    IntDecimalRoundTrip(maxRequestPerSecond);
  }

  /** The worker count a workers-updated response announces reads back as the count. */
  lemma WorkerCountReadsBack(h: ResponseHeader, workers: USize)
    requires IsWorkersUpdatedHeader(h, workers)
    ensures var v := Lookup(h.headers, "X-Worker-Count").value;
      AllDigits(v) && DecimalValue(v) == workers
  {
    NatDecimalRoundTrip(workers);
  }

  /**
    503 for a full queue. The header is written twice, first ending the
    stream and then not; only after both writes succeed is the drop counter
    incremented. The result is always an error.
   */
  method CreateQueueFullResponse(session: Session, queueDropCount: Counter) returns (r: Result<bool, PingoraError>)
    modifies session, queueDropCount
    ensures r.Err?
    ensures session.keepalive.None?
    ensures old(session.writesLeft) == 0 ==>
      && r == Err(WRITE_FAILED)
      && session.written == old(session.written)
      && session.writesLeft == 0
      && queueDropCount.value == old(queueDropCount.value)
    ensures old(session.writesLeft) == 1 ==>
      && r == Err(WRITE_FAILED)
      && |session.written| == |old(session.written)| + 1
      && session.written[..|old(session.written)|] == old(session.written)
      && IsQueueFullHeader(session.written[|old(session.written)|].0)
      && session.written[|old(session.written)|].1
      && session.written[|old(session.written)|].2.None?
      && session.writesLeft == 0
      && queueDropCount.value == old(queueDropCount.value)
    ensures old(session.writesLeft) >= 2 ==>
      && r == Err(QUEUE_FULL_ERROR)
      && |session.written| == |old(session.written)| + 2
      && session.written[..|old(session.written)|] == old(session.written)
      && var first := session.written[|old(session.written)|];
      && var second := session.written[|old(session.written)| + 1];
      && IsQueueFullHeader(first.0) && first.1 && first.2.None?
      && second.0 == first.0 && !second.1 && second.2.None?
      && session.writesLeft == old(session.writesLeft) - 2
      && queueDropCount.value == old(queueDropCount.value) + 1
  {
    var built := BuildHeader(503);
    if built.Err? { assert false; }
    var header := built.value;
    var withMessage := InsertHeader(header, "grpc-message", QUEUE_FULL_MESSAGE);
    if withMessage.Err? { assert false; }
    header := withMessage.value;
    DecimalIsValidHeaderValue(RESOURCE_EXHAUSTED_CODE);
    var withStatus := InsertHeader(header, "grpc-status", NatDecimal(RESOURCE_EXHAUSTED_CODE));
    if withStatus.Err? { assert false; }
    header := withStatus.value;
    assert IsQueueFullHeader(header);

    session.SetKeepalive(None);
    var w := session.WriteResponseHeader(header, true);
    if w.Err? {
      return Err(w.error);
    }

    var error := PingoraError(HTTPStatus(503), Some(QUEUE_FULL_MESSAGE), None);
    error := error.(cause := Some(QUEUE_FULL_MESSAGE));

    w := session.WriteResponseHeader(header, false);
    if w.Err? {
      return Err(w.error);
    }

    queueDropCount.Inc();
    return Err(error);
  }

  /** 429 when a client exceeds the rate limit. */
  method CreateTooManyRequestsResponse(session: Session, maxRequestPerSecond: ISize) returns (r: Result<bool, PingoraError>)
    modifies session
    ensures session.keepalive.None?
    ensures old(session.writesLeft) == 0 ==>
      r == Err(WRITE_FAILED) && session.written == old(session.written) && session.writesLeft == 0
    ensures old(session.writesLeft) > 0 ==>
      && r == Ok(true)
      && |session.written| == |old(session.written)| + 1
      && session.written[..|old(session.written)|] == old(session.written)
      && IsTooManyRequestsHeader(session.written[|old(session.written)|].0, maxRequestPerSecond)
      && session.written[|old(session.written)|].1
      && session.written[|old(session.written)|].2.None?
      && session.writesLeft == old(session.writesLeft) - 1
  {
    var built := BuildHeader(429);
    if built.Err? { assert false; }
    var header := built.value;
    DecimalIsValidHeaderValue(maxRequestPerSecond);
    var withLimit := InsertHeader(header, "X-Rate-Limit-Limit", IntDecimal(maxRequestPerSecond));
    if withLimit.Err? { assert false; }
    var withRemaining := InsertHeader(withLimit.value, "X-Rate-Limit-Remaining", "0");
    if withRemaining.Err? { assert false; }
    var withReset := InsertHeader(withRemaining.value, "X-Rate-Limit-Reset", "1");
    if withReset.Err? { assert false; }
    header := withReset.value;
    RateLimitHeaderBuilt(built.value, withLimit.value, withRemaining.value, header, maxRequestPerSecond);

    session.SetKeepalive(None);
    var w := session.WriteResponseHeader(header, true);
    if w.Err? {
      return Err(w.error);
    }
    return Ok(true);
  }

  /** 200 after the worker list changed, announcing the number of workers. */
  method CreateWorkersUpdatedResponse(session: Session, workers: USize) returns (r: Result<bool, PingoraError>)
    modifies session
    ensures session.keepalive.None?
    ensures old(session.writesLeft) == 0 ==>
      r == Err(WRITE_FAILED) && session.written == old(session.written) && session.writesLeft == 0
    ensures old(session.writesLeft) > 0 ==>
      && r == Ok(true)
      && |session.written| == |old(session.written)| + 1
      && session.written[..|old(session.written)|] == old(session.written)
      && IsWorkersUpdatedHeader(session.written[|old(session.written)|].0, workers)
      && session.written[|old(session.written)|].1
      && session.written[|old(session.written)|].2.None?
      && session.writesLeft == old(session.writesLeft) - 1
  {
    var built := BuildHeader(200);
    if built.Err? { assert false; }
    DecimalIsValidHeaderValue(workers);
    var withCount := InsertHeader(built.value, "X-Worker-Count", NatDecimal(workers));
    if withCount.Err? { assert false; }
    var header := withCount.value;

    session.SetKeepalive(None);
    var w := session.WriteResponseHeader(header, true);
    if w.Err? {
      return Err(w.error);
    }
    return Ok(true);
  }

  /**
    400 carrying an error message. A message that is not a valid header
    value fails before the session is touched.
   */
  method CreateResponseWithErrorMessage(session: Session, errorMsg: string) returns (r: Result<bool, PingoraError>)
    modifies session
    ensures !ValidHeaderValue(errorMsg) ==>
      r == Err(INVALID_HEADER)
      && session.keepalive == old(session.keepalive)
      && session.written == old(session.written)
      && session.writesLeft == old(session.writesLeft)
    ensures ValidHeaderValue(errorMsg) ==> session.keepalive.None?
    ensures ValidHeaderValue(errorMsg) && old(session.writesLeft) == 0 ==>
      r == Err(WRITE_FAILED) && session.written == old(session.written) && session.writesLeft == 0
    ensures ValidHeaderValue(errorMsg) && old(session.writesLeft) > 0 ==>
      && r == Ok(true)
      && |session.written| == |old(session.written)| + 1
      && session.written[..|old(session.written)|] == old(session.written)
      && IsErrorMessageHeader(session.written[|old(session.written)|].0, errorMsg)
      && session.written[|old(session.written)|].1
      && session.written[|old(session.written)|].2.None?
      && session.writesLeft == old(session.writesLeft) - 1
  {
    var built := BuildHeader(400);
    if built.Err? { assert false; }
    var withMessage := InsertHeader(built.value, "X-Error-Message", errorMsg);
    if withMessage.Err? {
      return Err(withMessage.error);
    }
    var header := withMessage.value;

    session.SetKeepalive(None);
    var w := session.WriteResponseHeader(header, true);
    if w.Err? {
      return Err(w.error);
    }
    return Ok(true);
  }
}

=== FILE: seqs.dfy ===
/**
  Sequence facts shared by the block model: flattening a sequence of
  batches (with the offset at which each batch starts), distinctness, and
  the position of the first element that repeats an earlier one.
 */
module Seqs {
  import opened Common

  /** All inner sequences laid end to end, in order. */
  function Flatten<T>(ss: seq<seq<T>>): (r: seq<T>)
    ensures |r| == TotalLength(ss)
  {
    if |ss| == 0 then [] else Flatten(ss[..|ss| - 1]) + ss[|ss| - 1]
  }

  /** Sum of the lengths of the inner sequences. */
  function TotalLength<T>(ss: seq<seq<T>>): nat
  {
    if |ss| == 0 then 0 else TotalLength(ss[..|ss| - 1]) + |ss[|ss| - 1]|
  }

  /** Position in `Flatten(ss)` at which `ss[i]` begins. */
  function Offset<T>(ss: seq<seq<T>>, i: nat): nat
    requires i <= |ss|
  {
    TotalLength(ss[..i])
  }

  lemma OffsetNext<T>(ss: seq<seq<T>>, i: nat)
    requires i < |ss|
    ensures Offset(ss, i + 1) == Offset(ss, i) + |ss[i]|
  {
    assert ss[..i + 1][..i] == ss[..i];
  }

  lemma {:induction false} OffsetAll<T>(ss: seq<seq<T>>)
    ensures Offset(ss, |ss|) == TotalLength(ss)
  {
    assert ss[..|ss|] == ss;
  }

  /** A later batch starts after every element of an earlier batch. */
  lemma {:induction false} OffsetMonotone<T>(ss: seq<seq<T>>, i1: nat, i2: nat)
    requires i1 < i2 <= |ss|
    ensures Offset(ss, i1) + |ss[i1]| <= Offset(ss, i2)
    decreases i2
  {
    if i2 == i1 + 1 {
      OffsetNext(ss, i1);
    } else {
      OffsetMonotone(ss, i1, i2 - 1);
      OffsetNext(ss, i2 - 1);
    }
  }

  /** Element `j` of batch `i` sits at position `Offset(ss, i) + j` of the flattening. */
  lemma {:induction false} FlattenAt<T>(ss: seq<seq<T>>, i: nat, j: nat)
    requires i < |ss| && j < |ss[i]|
    ensures Offset(ss, i) + j < |Flatten(ss)|
    ensures Flatten(ss)[Offset(ss, i) + j] == ss[i][j]
  {
    var n := |ss| - 1;
    var init := ss[..n];
    assert ss[..n + 1] == ss;
    if i < n {
      assert init[..i] == ss[..i];
      FlattenAt(init, i, j);
    } else {
      assert Offset(ss, i) == TotalLength(init) == |Flatten(init)|;
    }
  }

  /** Every position of the flattening belongs to exactly one batch element. */
  lemma {:induction false} FlattenLocate<T>(ss: seq<seq<T>>, k: nat) returns (i: nat, j: nat)
    requires k < |Flatten(ss)|
    ensures i < |ss| && j < |ss[i]|
    ensures k == Offset(ss, i) + j
    ensures Flatten(ss)[k] == ss[i][j]
  {
    var n := |ss| - 1;
    var init := ss[..n];
    if k < |Flatten(init)| {
      i, j := FlattenLocate(init, k);
      assert init[..i] == ss[..i];
    } else {
      i, j := n, k - |Flatten(init)|;
      assert ss[..n + 1] == ss;
    }
    FlattenAt(ss, i, j);
  }

  /** Two sequences of sequences with the same shape have the same total length. */
  lemma {:induction false} TotalLengthSameShape<S, T>(ss: seq<seq<S>>, tt: seq<seq<T>>)
    requires |ss| == |tt|
    requires forall i :: 0 <= i < |ss| ==> |ss[i]| == |tt[i]|
    ensures TotalLength(ss) == TotalLength(tt)
  {
    if |ss| > 0 {
      TotalLengthSameShape(ss[..|ss| - 1], tt[..|tt| - 1]);
    }
  }

  /** ... and every batch starts at the same offset in both. */
  lemma OffsetSameShape<S, T>(ss: seq<seq<S>>, tt: seq<seq<T>>, i: nat)
    requires |ss| == |tt| && i <= |ss|
    requires forall k :: 0 <= k < |ss| ==> |ss[k]| == |tt[k]|
    ensures Offset(ss, i) == Offset(tt, i)
  {
    TotalLengthSameShape(ss[..i], tt[..i]);
  }

  /** The values occurring in a sequence. */
  ghost function Elements<T>(s: seq<T>): set<T>
  {
    set k | 0 <= k < |s| :: s[k]
  }

  /** No value occurs twice. */
  ghost predicate Distinct<T>(s: seq<T>)
  {
    forall i, j :: 0 <= i < j < |s| ==> s[i] != s[j]
  }

  /**
    The first position whose value already occurred earlier, scanning
    from the front, or None when there is none; FirstRepeatMeaning relates
    it to Distinct.
   */
  function FirstRepeat<T(==)>(s: seq<T>): (r: Option<nat>)
    ensures r.Some? ==> r.value < |s|
  {
    if |s| == 0 then None
    else
      var n := |s| - 1;
      match FirstRepeat(s[..n])
      case Some(p) => Some(p)
      case None => if s[n] in s[..n] then Some(n) else None
  }

  /**
    None exactly when the values are pairwise distinct; otherwise a position
    whose value occurs before it, with everything before it distinct.
   */
  lemma {:induction false} FirstRepeatMeaning<T>(s: seq<T>)
    ensures FirstRepeat(s).None? <==> Distinct(s)
    ensures FirstRepeat(s).Some? ==>
      var p := FirstRepeat(s).value;
      s[p] in s[..p] && Distinct(s[..p])
  {
    if |s| > 0 {
      var n := |s| - 1;
      var init := s[..n];
      FirstRepeatMeaning(init);
      match FirstRepeat(init)
      case Some(p) =>
        assert init[..p] == s[..p];
        assert !Distinct(s) by {
          var k :| 0 <= k < p && s[..p][k] == s[p];
          assert s[k] == s[p];
        }
      case None =>
        if s[n] in init {
          var k :| 0 <= k < n && init[k] == s[n];
          assert s[k] == s[n];
        } else {
          forall i, j | 0 <= i < j < |s| ensures s[i] != s[j] {
            if j < n {
              assert init[i] == s[i] && init[j] == s[j];
            } else {
              assert s[i] == init[i];
            }
          }
        }
    }
  }

  /** Once a repeat occurs, anything appended later does not move it. */
  lemma {:induction false} FirstRepeatExtend<T>(t: seq<T>, u: seq<T>)
    requires FirstRepeat(t).Some?
    ensures FirstRepeat(t + u) == FirstRepeat(t)
    decreases |u|
  {
    if |u| == 0 {
      assert t + u == t;
    } else {
      var m := |u| - 1;
      assert (t + u)[..|t + u| - 1] == t + u[..m];
      FirstRepeatExtend(t, u[..m]);
    }
  }
}

=== FILE: transaction_kernel.dfy ===
/**
  The transaction kernel's public interface as seen from the host: the
  input stack handed to the kernel, the output stack it leaves, how that
  output stack and the advice map are turned into transaction outputs,
  and the advice data added for a foreign account.
 */
module TransactionKernel {
  import opened Common

  /** A block number is a Rust `u32`. */
  type BlockNumber = x: nat | x <= U32_MAX

  /** An account ID is two field elements. */
  datatype AccountId = AccountId(prefix: Felt, suffix: Felt)

  /** The VM's operand stack always holds at least this many elements. */
  const MIN_STACK_DEPTH: nat := 16

  /** Layout of the output stack: output-notes commitment in word 0, final account hash in word 1, then the expiration. */
  const OUTPUT_NOTES_COMMITMENT_WORD_IDX: nat := 0
  const FINAL_ACCOUNT_HASH_WORD_IDX: nat := 1
  const EXPIRATION_BLOCK_ELEMENT_IDX: nat := 8

  /** The sixteen elements on top of the stack when the kernel finishes, top first. */
  type StackOutputs = s: seq<Felt> | |s| == 16
    witness [0, 0, 0, 0, 0, 0, 0, 0, 0, 0, 0, 0, 0, 0, 0, 0]

  /** The elements in the opposite order. */
  function Reverse<T>(s: seq<T>): (r: seq<T>)
    ensures |r| == |s|
    ensures forall k :: 0 <= k < |s| ==> r[k] == s[|s| - 1 - k]
  {
    if |s| == 0 then [] else [s[|s| - 1]] + Reverse(s[..|s| - 1])
  }

  /** How the VM builds stack outputs: the given values on top, zeros below up to the minimum depth. */
  function NewStackOutputs(values: seq<Felt>): (stack: StackOutputs)
    requires |values| <= MIN_STACK_DEPTH
    ensures stack[..|values|] == values
    ensures forall k :: |values| <= k < MIN_STACK_DEPTH ==> stack[k] == ZERO
  {
    values + seq(MIN_STACK_DEPTH - |values|, _ => ZERO)
  }

  /** The word whose elements start at `idx`: a word `[a, b, c, d]` sits on the stack as `d, c, b, a`. */
  function StackWord(stack: StackOutputs, idx: nat): (w: Word)
    requires idx + 4 <= MIN_STACK_DEPTH
    ensures w == Reverse(stack[idx..idx + 4])
  {
    [stack[idx + 3], stack[idx + 2], stack[idx + 1], stack[idx]]
  }

  // ----------------------------------------------------------------------------------------
  // Input stack
  // ----------------------------------------------------------------------------------------

  /**
    The fourteen public inputs in the order the kernel's prologue expects
    them: input-notes commitment, initial account hash, account ID suffix
    and prefix, reference block hash.
   */
  ghost predicate IsInputStack(
    inputs: seq<Felt>, accountId: AccountId, initAcctHash: Digest, inputNotesHash: Digest, blockHash: Digest)
  {
    && |inputs| == 14
    && inputs[0..4] == inputNotesHash
    && inputs[4..8] == initAcctHash
    && inputs[8] == accountId.suffix
    && inputs[9] == accountId.prefix
    && inputs[10..14] == blockHash
  }

  /** Distinct inputs give distinct stacks: each input can be read back from its slot. */
  lemma InputStackDeterminesInputs(
    inputs: seq<Felt>,
    a1: AccountId, i1: Digest, n1: Digest, b1: Digest,
    a2: AccountId, i2: Digest, n2: Digest, b2: Digest)
    requires IsInputStack(inputs, a1, i1, n1, b1) && IsInputStack(inputs, a2, i2, n2, b2)
    ensures a1 == a2 && i1 == i2 && n1 == n2 && b1 == b2
  {
  }

  /** The values handed to the VM as the kernel's stack inputs. */
  method BuildInputStack(accountId: AccountId, initAcctHash: Digest, inputNotesHash: Digest, blockHash: Digest)
    returns (inputs: seq<Felt>)
    ensures IsInputStack(inputs, accountId, initAcctHash, inputNotesHash, blockHash)
  {
    inputs := [];
    inputs := inputs + inputNotesHash;
    inputs := inputs + initAcctHash;
    inputs := inputs + [accountId.suffix];
    inputs := inputs + [accountId.prefix];
    inputs := inputs + blockHash;
  }

  // ----------------------------------------------------------------------------------------
  // Output stack
  // ----------------------------------------------------------------------------------------

  /** The output stack a transaction with these results leaves behind. */
  function OutputStackOf(finalAcctHash: Digest, outputNotesHash: Digest, expiration: BlockNumber): StackOutputs
  {
    NewStackOutputs(Reverse([expiration as Felt] + finalAcctHash + outputNotesHash))
  }

  /** Where each result sits: notes commitment in word 0, final account hash in word 1, expiration at 8, zeros after. */
  lemma OutputStackLayout(finalAcctHash: Digest, outputNotesHash: Digest, expiration: BlockNumber)
    ensures var stack := OutputStackOf(finalAcctHash, outputNotesHash, expiration);
      && StackWord(stack, OUTPUT_NOTES_COMMITMENT_WORD_IDX * 4) == outputNotesHash
      && StackWord(stack, FINAL_ACCOUNT_HASH_WORD_IDX * 4) == finalAcctHash
      && stack[EXPIRATION_BLOCK_ELEMENT_IDX] == expiration
      && forall k :: 9 <= k < MIN_STACK_DEPTH ==> stack[k] == ZERO
  {
    var values := [expiration as Felt] + finalAcctHash + outputNotesHash;
    var reversed := Reverse(values);
    var stack := OutputStackOf(finalAcctHash, outputNotesHash, expiration);
    assert stack[..9] == reversed;
    assert forall k :: 0 <= k < 9 ==> stack[k] == values[8 - k];
  }

  /** The output stack: expiration, final account hash and notes commitment, reversed so that the commitment is on top. */
  method BuildOutputStack(finalAcctHash: Digest, outputNotesHash: Digest, expiration: BlockNumber)
    returns (stack: StackOutputs)
    ensures stack[..9] == Reverse([expiration as Felt] + finalAcctHash + outputNotesHash)
    ensures forall k :: 9 <= k < MIN_STACK_DEPTH ==> stack[k] == ZERO
    ensures stack == OutputStackOf(finalAcctHash, outputNotesHash, expiration)
    ensures ParseOutputStack(stack) == Ok((finalAcctHash, outputNotesHash, expiration))
  {
    var outputs: seq<Felt> := [];
    outputs := outputs + [expiration as Felt];
    outputs := outputs + finalAcctHash;
    outputs := outputs + outputNotesHash;
    outputs := Reverse(outputs);
    stack := NewStackOutputs(outputs);
    ParseInvertsBuild(finalAcctHash, outputNotesHash, expiration);
  }

  datatype AccountError = AccountError(reason: string)

  /** Why a list of output notes is refused. */
  datatype OutputNotesError = DuplicateNote(id: Digest) | TooManyNotes(count: nat)

  datatype TransactionOutputError =
    | OutputStackInvalid(message: string)
    | FinalAccountHashMissingInAdviceMap
    | FinalAccountHeaderParseFailure(cause: AccountError)
    | DuplicateOutputNote(id: Digest)
    | TooManyOutputNotes(count: nat)
    | OutputNotesCommitmentInconsistent(actual: Digest, expected: Digest)

  const EXPIRATION_TOO_LARGE: string := "Expiration block number should be smaller than u32::MAX"
  const FOURTH_WORD_NOT_EMPTY: string := "Fourth word on output stack should consist only of ZEROs"

  /**
    Reads `(final account hash, output notes commitment, expiration)` back
    from the output stack. The expiration must fit a `u32` and the word at
    element 12 must be empty; the expiration is checked first.
   */
  function ParseOutputStack(stack: StackOutputs): (r: Result<(Digest, Digest, BlockNumber), TransactionOutputError>)
    ensures r.Ok? <==> stack[8] <= U32_MAX && stack[12..16] == EMPTY_WORD
    ensures stack[8] > U32_MAX ==> r == Err(OutputStackInvalid(EXPIRATION_TOO_LARGE))
    ensures stack[8] <= U32_MAX && stack[12..16] != EMPTY_WORD ==> r == Err(OutputStackInvalid(FOURTH_WORD_NOT_EMPTY))
    ensures r.Ok? ==> r.value == (StackWord(stack, 4), StackWord(stack, 0), stack[8])
  {
    var outputNotesHash := StackWord(stack, OUTPUT_NOTES_COMMITMENT_WORD_IDX * 4);
    var finalAccountHash := StackWord(stack, FINAL_ACCOUNT_HASH_WORD_IDX * 4);
    var expiration := stack[EXPIRATION_BLOCK_ELEMENT_IDX];
    if expiration > U32_MAX then
      Err(OutputStackInvalid(EXPIRATION_TOO_LARGE))
    else if StackWord(stack, 12) != EMPTY_WORD then
      assert stack[12..16] != EMPTY_WORD;
      Err(OutputStackInvalid(FOURTH_WORD_NOT_EMPTY))
    else
      assert stack[12..16] == EMPTY_WORD;
      Ok((finalAccountHash, outputNotesHash, expiration))
  }

  /** Parsing a built output stack gives back exactly what was built into it. */
  lemma ParseInvertsBuild(finalAcctHash: Digest, outputNotesHash: Digest, expiration: BlockNumber)
    ensures ParseOutputStack(OutputStackOf(finalAcctHash, outputNotesHash, expiration))
            == Ok((finalAcctHash, outputNotesHash, expiration))
  {
    var stack := OutputStackOf(finalAcctHash, outputNotesHash, expiration);
    OutputStackLayout(finalAcctHash, outputNotesHash, expiration);
    assert stack[12..16] == EMPTY_WORD;
  }

  /**
    Conversely, a stack that parses and whose elements 9 to 11 are zero is
    the stack built from the parsed results.
   */
  lemma BuildInvertsParse(stack: StackOutputs)
    requires ParseOutputStack(stack).Ok?
    requires stack[9] == ZERO && stack[10] == ZERO && stack[11] == ZERO
    ensures var (f, n, e) := ParseOutputStack(stack).value;
      OutputStackOf(f, n, e) == stack
  {
    var (f, n, e) := ParseOutputStack(stack).value;
    OutputStackLayout(f, n, e);
    var built := OutputStackOf(f, n, e);
    assert forall k :: 0 <= k < 16 ==> built[k] == stack[k] by {
      assert StackWord(built, 0) == StackWord(stack, 0);
      assert StackWord(built, 4) == StackWord(stack, 4);
      assert stack[12..16] == EMPTY_WORD;
    }
  }

  /** Elements 9 to 11 are never inspected: changing one does not change the parse. */
  lemma ParseIgnoresElements9To11(stack: StackOutputs, k: nat, x: Felt)
    requires 9 <= k < 12
    ensures ParseOutputStack(stack[k := x]) == ParseOutputStack(stack)
  {
    var changed: StackOutputs := stack[k := x];
    assert changed[12..16] == stack[12..16];
    assert StackWord(changed, 0) == StackWord(stack, 0);
    assert StackWord(changed, 4) == StackWord(stack, 4);
  }

  // ----------------------------------------------------------------------------------------
  // Transaction outputs
  // ----------------------------------------------------------------------------------------

  /** An account header; `data` is its element encoding and `commitment` its hash, both computed by code outside this model. */
  datatype AccountHeader = AccountHeader(
    id: AccountId,
    storageCommitment: Digest,
    codeCommitment: Digest,
    data: seq<Felt>,
    commitment: Digest)

  datatype TransactionOutputs = TransactionOutputs(
    account: AccountHeader,
    outputNotes: seq<OutputNote>,
    expirationBlockNum: BlockNumber)

  /**
    The collaborators the output parser relies on, none of them part of
    this model: decoding the final account header from advice data,
    checking a list of output notes, and committing to it.
   */
  datatype OutputParsers = OutputParsers(
    parseFinalAccountHeader: seq<Felt> -> Result<AccountHeader, AccountError>,
    newOutputNotes: seq<OutputNote> -> Result<seq<OutputNote>, OutputNotesError>,
    commitment: seq<OutputNote> -> Digest)

  /**
    Transaction outputs from the output stack, the advice map and the output
    notes: the stack must parse, the final account hash must be a key of the
    advice map whose data decodes to a header, the notes must be accepted,
    and their commitment must equal the one on the stack.
   */
  function FromTransactionParts(
    stack: StackOutputs,
    advMap: map<Digest, seq<Felt>>,
    outputNotes: seq<OutputNote>,
    parsers: OutputParsers): (r: Result<TransactionOutputs, TransactionOutputError>)
    ensures ParseOutputStack(stack).Err? ==> r == Err(ParseOutputStack(stack).error)
    ensures ParseOutputStack(stack).Ok? && ParseOutputStack(stack).value.0 !in advMap
            ==> r == Err(FinalAccountHashMissingInAdviceMap)
    ensures r.Err? && r.error.FinalAccountHeaderParseFailure? ==>
      && ParseOutputStack(stack).Ok?
      && ParseOutputStack(stack).value.0 in advMap
      && parsers.parseFinalAccountHeader(advMap[ParseOutputStack(stack).value.0]) == Err(r.error.cause)
    ensures r.Err? && (r.error.DuplicateOutputNote? || r.error.TooManyOutputNotes?) ==>
      parsers.newOutputNotes(outputNotes).Err?
    ensures r.Err? && r.error.OutputNotesCommitmentInconsistent? ==>
      && ParseOutputStack(stack).Ok?
      && parsers.newOutputNotes(outputNotes).Ok?
      && r.error.actual == parsers.commitment(parsers.newOutputNotes(outputNotes).value)
      && r.error.expected == ParseOutputStack(stack).value.1
      && r.error.actual != r.error.expected
    ensures var p := ParseOutputStack(stack);
      p.Ok? && p.value.0 in advMap ==>
      match parsers.parseFinalAccountHeader(advMap[p.value.0])
      case Err(e) => r == Err(FinalAccountHeaderParseFailure(e))
      case Ok(account) =>
        match parsers.newOutputNotes(outputNotes)
        case Err(DuplicateNote(id)) => r == Err(DuplicateOutputNote(id))
        case Err(TooManyNotes(count)) => r == Err(TooManyOutputNotes(count))
        case Ok(notes) =>
          if parsers.commitment(notes) != p.value.1
          then r == Err(OutputNotesCommitmentInconsistent(parsers.commitment(notes), p.value.1))
          else r == Ok(TransactionOutputs(account, notes, p.value.2))
    ensures r.Ok? ==>
      && ParseOutputStack(stack).Ok?
      && var (finalAcctHash, outputNotesHash, expiration) := ParseOutputStack(stack).value;
      && finalAcctHash in advMap
      && parsers.parseFinalAccountHeader(advMap[finalAcctHash]) == Ok(r.value.account)
      && parsers.newOutputNotes(outputNotes) == Ok(r.value.outputNotes)
      && parsers.commitment(r.value.outputNotes) == outputNotesHash
      && r.value.expirationBlockNum == expiration
  {
    var parsed :- ParseOutputStack(stack);
    var (finalAcctHash, outputNotesHash, expiration) := parsed;
    if finalAcctHash !in advMap then
      Err(FinalAccountHashMissingInAdviceMap)
    else
      match parsers.parseFinalAccountHeader(advMap[finalAcctHash])
      case Err(e) => Err(FinalAccountHeaderParseFailure(e))
      case Ok(account) =>
        match parsers.newOutputNotes(outputNotes)
        case Err(DuplicateNote(id)) => Err(DuplicateOutputNote(id))
        case Err(TooManyNotes(count)) => Err(TooManyOutputNotes(count))
        case Ok(notes) =>
        if outputNotesHash != parsers.commitment(notes) then
          Err(OutputNotesCommitmentInconsistent(parsers.commitment(notes), outputNotesHash))
        else
          Ok(TransactionOutputs(account, notes, expiration))
  }

  /**
    On a stack built from results `(f, n, e)`, output parsing succeeds exactly
    when the advice map holds a decodable header under `f`, the notes are
    accepted and they commit to `n`; the outputs then carry expiration `e`.
   */
  lemma OutputsFromBuiltStack(
    finalAcctHash: Digest, outputNotesHash: Digest, expiration: BlockNumber,
    advMap: map<Digest, seq<Felt>>, outputNotes: seq<OutputNote>, parsers: OutputParsers)
    ensures var r := FromTransactionParts(
        OutputStackOf(finalAcctHash, outputNotesHash, expiration), advMap, outputNotes, parsers);
      && (r.Ok? <==>
            && finalAcctHash in advMap
            && parsers.parseFinalAccountHeader(advMap[finalAcctHash]).Ok?
            && parsers.newOutputNotes(outputNotes).Ok?
            && parsers.commitment(parsers.newOutputNotes(outputNotes).value) == outputNotesHash)
      && (r.Ok? ==> r.value.expirationBlockNum == expiration)
  {
    ParseInvertsBuild(finalAcctHash, outputNotesHash, expiration);
  }

  // ----------------------------------------------------------------------------------------
  // Advice inputs
  // ----------------------------------------------------------------------------------------

  /** One node of a Merkle path, as added to the Merkle store. */
  datatype InnerNodeInfo = InnerNodeInfo(value: Digest, left: Digest, right: Digest)

  datatype MerkleError = MerkleError(reason: string)

  /** A Merkle authentication path; computing its inner nodes is not part of this model. */
  datatype MerklePath = MerklePath(nodes: seq<Digest>)

  datatype AccountCode = AccountCode(data: seq<Felt>)

  datatype AccountStorageHeader = AccountStorageHeader(data: seq<Felt>)

  /** Map entries inserted in order: a later entry for the same key replaces an earlier one. */
  function WithEntries<K, V>(m: map<K, V>, entries: seq<(K, V)>): map<K, V>
  {
    if |entries| == 0 then m
    else
      var last := entries[|entries| - 1];
      WithEntries(m, entries[..|entries| - 1])[last.0 := last.1]
  }

  /** The key under which a foreign account's header is found: `[suffix, prefix, 0, 0]`. */
  function AccountKey(id: AccountId): Digest
  {
    [id.suffix, id.prefix, ZERO, ZERO]
  }

  /** Data the VM can read non-deterministically while executing the kernel. */
  class AdviceInputs {
    var stack: seq<Felt>
    var advMap: map<Digest, seq<Felt>>
    var store: set<InnerNodeInfo>

    /** Empty advice inputs. */
    constructor ()
      ensures stack == [] && advMap == map[] && store == {}
    {
      stack := [];
      advMap := map[];
      store := {};
    }

    method ExtendMap(entries: seq<(Digest, seq<Felt>)>)
      modifies this
      ensures advMap == WithEntries(old(advMap), entries)
      ensures stack == old(stack) && store == old(store)
    {
      advMap := WithEntries(advMap, entries);
    }

    method ExtendMerkleStore(nodes: seq<InnerNodeInfo>)
      modifies this
      ensures store == old(store) + set n | n in nodes
      ensures stack == old(stack) && advMap == old(advMap)
    {
      store := store + set n | n in nodes;
    }
  }

  /**
    Adds a foreign account's data to the advice inputs: three map entries
    (account key to header data, storage root to storage data, code root to
    code data), then the inner nodes of the account's Merkle path. The map
    entries are added even when computing the inner nodes fails.
   */
  method ExtendAdviceInputsForAccount(
    adviceInputs: AdviceInputs,
    accountHeader: AccountHeader,
    accountCode: AccountCode,
    storageHeader: AccountStorageHeader,
    merklePath: MerklePath,
    innerNodes: (MerklePath, nat, Digest) -> Result<seq<InnerNodeInfo>, MerkleError>)
    returns (r: Result<(), MerkleError>)
    modifies adviceInputs
    ensures adviceInputs.advMap
      == old(adviceInputs.advMap)
           [AccountKey(accountHeader.id) := accountHeader.data]
           [accountHeader.storageCommitment := storageHeader.data]
           [accountHeader.codeCommitment := accountCode.data]
    ensures adviceInputs.stack == old(adviceInputs.stack)
    ensures var nodes := innerNodes(merklePath, accountHeader.id.prefix, accountHeader.commitment);
      && (nodes.Err? ==> r == Err(nodes.error) && adviceInputs.store == old(adviceInputs.store))
      && (nodes.Ok? ==> r == Ok(()) && adviceInputs.store == old(adviceInputs.store) + set n | n in nodes.value)
  {
    var accountId := accountHeader.id;
    var storageRoot := accountHeader.storageCommitment;
    var codeRoot := accountHeader.codeCommitment;
    var accountKey := AccountKey(accountId);

    var entries := [
      (accountKey, accountHeader.data),
      (storageRoot, storageHeader.data),
      (codeRoot, accountCode.data)
    ];
    adviceInputs.ExtendMap(entries);
    assert entries[..2][..1] == entries[..1] && entries[..3][..2] == entries[..2] && entries[..3] == entries;
    assert adviceInputs.advMap == WithEntries(old(adviceInputs.advMap), entries);
    assert WithEntries(old(adviceInputs.advMap), entries[..1]) == old(adviceInputs.advMap)[accountKey := accountHeader.data];

    var nodes := innerNodes(merklePath, accountId.prefix, accountHeader.commitment);
    if nodes.Err? {
      return Err(nodes.error);
    }
    adviceInputs.ExtendMerkleStore(nodes.value);
    return Ok(());
  }

  /** What the three map entries mean: each key maps to its data, later entries winning on a clash. */
  lemma AccountEntriesLookup(
    m: map<Digest, seq<Felt>>, header: AccountHeader, code: AccountCode, storage: AccountStorageHeader, k: Digest)
    ensures var m' := m[AccountKey(header.id) := header.data]
                       [header.storageCommitment := storage.data]
                       [header.codeCommitment := code.data];
      && (k == header.codeCommitment ==> m'[k] == code.data)
      && (k == header.storageCommitment && k != header.codeCommitment ==> m'[k] == storage.data)
      && ((k == AccountKey(header.id) && k != header.storageCommitment && k != header.codeCommitment)
            ==> m'[k] == header.data)
      && ((k != AccountKey(header.id) && k != header.storageCommitment && k != header.codeCommitment)
            ==> (k in m' <==> k in m) && (k in m ==> m'[k] == m[k]))
  {
  }

  // ----------------------------------------------------------------------------------------
  // Preparing a transaction
  // ----------------------------------------------------------------------------------------

  /** What the input stack is built from: the executing account, the input notes and the reference block. */
  datatype TransactionInputs = TransactionInputs(
    accountId: AccountId,
    initAccountHash: Digest,
    inputNotesCommitment: Digest,
    blockHash: Digest)

  /**
    The kernel's stack inputs and the advice inputs to extend: the caller's
    advice inputs when given, fresh empty ones otherwise.
   */
  method PrepareInputs(txInputs: TransactionInputs, initAdviceInputs: Option<AdviceInputs>)
    returns (stackInputs: seq<Felt>, adviceInputs: AdviceInputs)
    ensures IsInputStack(stackInputs, txInputs.accountId, txInputs.initAccountHash,
                         txInputs.inputNotesCommitment, txInputs.blockHash)
    ensures initAdviceInputs.None? ==>
      fresh(adviceInputs) && adviceInputs.stack == [] && adviceInputs.advMap == map[] && adviceInputs.store == {}
    ensures initAdviceInputs.Some? ==> adviceInputs == initAdviceInputs.value
  {
    stackInputs := BuildInputStack(
      txInputs.accountId, txInputs.initAccountHash, txInputs.inputNotesCommitment, txInputs.blockHash);
    match initAdviceInputs
    case Some(given) =>
      adviceInputs := given;
    case None =>
      adviceInputs := new AdviceInputs();
  }
}
